=== FILE: README.md ===
# Cinema seat reservation — a Dafny model

This project models the booking core of a small cinema system.
- The backend is an Express API over MySQL. It lists the showtimes of a film and shows a showtime's seat map.
- It books one seat for one showtime inside a locking transaction.
- The React page draws the seat map and sends the booking clicks.

Everything is modelled as pure functions over immutable rows (`Schema.Store`). Two parts of the source's environment become parameters:
- Whether a statement reaches the database, given as `Schema.Health`. The showtime, film, seat and reservation repositories catch driver errors. Most of their operations then answer with fabricated data; the pair lookup answers with nothing. The generic base repository catches nothing and lets the error propagate.
- Random draws, the clock and the user's answer to the confirmation dialog.

The modules follow the source files:

| module | models |
|---|---|
| `Schema` | the tables, the `(sessao, assento)` pair query and the at-most-one-row-per-pair invariant |
| `Reservas` | `ReservaRepository`: the transaction, its swallowing outer `catch`, `findBySessaoAndAssento` |
| `Assentos` | `AssentoRepository.findBySessao`: the left join, the ordering, the fabricated room |
| `Sessoes` | `SessaoRepository.findById` and `findByFilme` with their fallbacks |
| `Filmes` | `FilmeRepository.findById`, which the showtime listing depends on |
| `BaseRepo` | `BaseRepository.findById` and the generic `create` INSERT builder |
| `Fileiras` | the row grouping and `Object.keys` order shared by service and page, and the service's `layout` |
| `Service` | `CinemaService.listarSessoes` and `visualizarAssentos` (`reservarAssento` passes through) |
| `Controller` | `CinemaController`: error message to HTTP status, the reservation body, and the booking endpoint as written and as corrected |
| `LayoutAssentos` | the seat-map component: grouping and sorting, disabled buttons, the click guard, the reload after 409 |
| `Booking` | one booking end to end, from the endpoint's answer to what the page shows |
| `Seqs`, `Text` | filter, stable sort, substring search, joins, digit strings, code-point order |

## Model

| member | source | states |
|---|---|---|
| Schema.PairRowsFound | backend/src/repositories/ReservaRespository.js:40-45 | the pair query returns a row exactly when some reservation holds the `(sessao, assento)` pair |
| Schema.UniquePairsIffAtMostOneRow | backend/src/repositories/ReservaRespository.js:40-55 | "no two rows share a pair" is equivalent to "every pair query returns at most one row", in both directions |
| Reservas.FindBySessaoAndAssento | backend/src/repositories/ReservaRespository.js:9-20 | a row comes back exactly when the database answers and the pair is booked, and it is a stored row for that pair; a database failure gives nothing |
| Reservas.LockedSeatRowsFound | backend/src/repositories/ReservaRespository.js:30-37 | the `FOR UPDATE` query finds a row exactly when a seat with that id is in service |
| Reservas.Transaction | backend/src/repositories/ReservaRespository.js:26-74 | "indisponível" exactly when the seat is missing or out of service, checked before the duplicate test; "já reservado" exactly when the seat is in service and the pair is booked; the store changes exactly when neither holds and the database answers, and then by exactly one appended row under the next id; every error leaves the store as it was, except a failed read-back after the commit; success exactly when the row is stored and the read-back answers; the success record carries the new id, the pair, the locked seat's row and number, `now` and "confirmada"; the one-row-per-pair invariant is preserved |
| Reservas.Synthetic | backend/src/repositories/ReservaRespository.js:78-86 | the fabricated record's id lies in 1..1000 |
| Reservas.CreateWithTransaction | backend/src/repositories/ReservaRespository.js:22-88 | the wrapper always returns a record for the requested pair with status "confirmada". One row is appended exactly when the database answers and the pair is free and in service; otherwise the store is unchanged. If that row is stored and the read-back answers, the record is the stored row: the next id, the locked seat's number and row, and `now`. In every other case, including a database failure, an unavailable seat and a booked pair, the record is the fabricated one. The fabricated record's date is the application clock `stamp`, not the database's `now`. The invariant is preserved |
| Reservas.ServeAllKeepsUniquePairs | backend/src/repositories/ReservaRespository.js:40-55 | any sequence of requests, whatever faults they meet, keeps at most one row per pair |
| Reservas.BookedPairIsFrozen | backend/src/repositories/ReservaRespository.js:30-47 | once a pair is booked, every further request for it that the database answers fails with "já reservado" (or "indisponível" for a seat out of service) and changes nothing, through the transaction or the wrapper |
| Reservas.MutualExclusion | backend/src/repositories/ReservaRespository.js:29-55 | of N requests for a free, in-service pair, all of which the database answers (statements and read-back), the first succeeds, the other N-1 fail with "já reservado", and exactly one row holds the pair afterwards |
| Reservas.MutualExclusionAsServed | backend/src/repositories/ReservaRespository.js:75-87 | through the wrapper, for N requests that the database answers, exactly one row holds the pair, yet all N callers receive a "confirmada" record |
| Reservas.FailedReadBackHidesBooking | backend/src/repositories/ReservaRespository.js:56-74 | if the first request's read-back fails after its commit, the pair is still booked once, but no caller sees a success: the first gets the driver's error and every later request the database answers gets "já reservado" |
| Reservas.AllConfirmed | backend/src/repositories/ReservaRespository.js:75-87 | every record the wrapper returns, over any sequence of requests, has status "confirmada" |
| Reservas.DecisionIgnoresShowtimeAndRoom | backend/src/repositories/ReservaRespository.js:29-52 | the transaction's outcome depends only on the seat rows with that id, the rows for the pair and the id counter |
| Reservas.ReservesForUnknownShowtime | backend/src/repositories/ReservaRespository.js:29-55 | the transaction makes no showtime check: with no foreign key in the model, a row is stored for a showtime id that names no showtime |
| Assentos.JoinRows | backend/src/repositories/AssentoRepository.js:14-19 | a seat contributes at least one row to the left join, and every row it contributes has status "ocupado" exactly when a reservation holds the pair for this showtime |
| Assentos.JoinAllMembers | backend/src/repositories/AssentoRepository.js:18-19 | the left join's rows are exactly the listed seats, each with its showtime status |
| Assentos.SeatMapMembers | backend/src/repositories/AssentoRepository.js:11-22 | the seat map holds exactly the seats whose room is the showtime's room, each with status "ocupado" iff this showtime's reservations hold it, whatever `disponivel` says; an unknown showtime gives an empty map |
| Assentos.SeatLeIsTotalPreorder | backend/src/repositories/AssentoRepository.js:21 | "row label, then numeric seat number" is a total preorder |
| Assentos.SeatMapSorted | backend/src/repositories/AssentoRepository.js:21 | the seat map is ordered by row label, then by the numeric value of the seat number ("10" after "9") |
| Assentos.JoinAllOnePerSeat | backend/src/repositories/AssentoRepository.js:19 | with at most one reservation per pair, the left join yields each seat exactly once, in order |
| Assentos.SeatMapOnePerSeat | backend/src/repositories/AssentoRepository.js:18-21 | with at most one reservation per pair, the seat map is a permutation of the room's seats, one row each |
| Assentos.SeatMapIgnoresOtherShowtimes | backend/src/repositories/AssentoRepository.js:19 | a reservation for another showtime leaves this showtime's seat map unchanged |
| Assentos.MockSeat | backend/src/repositories/AssentoRepository.js:32-41 | fabricated seat i has id i+1, row A..E by i/10, a number whose value is i%10+1, is in service, and is free exactly when its random draw says so |
| Assentos.MockSeats | backend/src/repositories/AssentoRepository.js:29-44 | the fallback yields 50 seats, the i-th being fabricated seat i, in row-major order |
| Assentos.MockSeatsSorted | backend/src/repositories/AssentoRepository.js:29-44 | the fabricated room is already in seat-map order |
| Assentos.FindBySessao | backend/src/repositories/AssentoRepository.js:9-46 | the seat map when the database answers, the 50 fabricated seats when it fails |
| Filmes.FindById | backend/src/repositories/FilmeRepository.js:31-71 | with the database up, a film comes back exactly when one has that id, and it is that film; with it down, the fabricated film with that id (ids 1 to 3), or else the first one |
| Sessoes.FindById | backend/src/repositories/SessaoRepository.js:9-30 | with the database up, a showtime comes back exactly when one with that id has its room and film, and it is that joined row; with it down, an active fabricated showtime with the requested id and film 1 |
| Sessoes.MockSessions | backend/src/repositories/SessaoRepository.js:56-77 | the fallback listing has two active showtimes, ids 1 and 2, both carrying the requested film id |
| Sessoes.SessionLeIsTotalPreorder | backend/src/repositories/SessaoRepository.js:49 | "date, then time" is a total preorder |
| Sessoes.ListingContents | backend/src/repositories/SessaoRepository.js:34-52 | the listing holds exactly the joined active showtimes of the film (on the date, when one is given), ordered by date then time |
| Sessoes.ListingFiltered | backend/src/repositories/SessaoRepository.js:39-47 | every listed showtime has the film's id, is active and, when a date is given, falls on it |
| Sessoes.EmptyDateIsNoDate | backend/src/repositories/SessaoRepository.js:44-47 | an empty date string applies no date filter, like an absent date |
| BaseRepo.Columns | backend/src/repositories/BaseRepository.js:22 | the column list has one name per entry, in entry order |
| BaseRepo.Values | backend/src/repositories/BaseRepository.js:26 | the parameter list has one value per entry, in the same order as the columns |
| BaseRepo.PlaceholdersMatchValues | backend/src/repositories/BaseRepository.js:21-31 | when the table and column names contain no `?`, the INSERT holds exactly one placeholder per entry, matching the number of parameters, and the i-th column and the i-th value come from the same entry |
| BaseRepo.ReservaInsert | backend/src/repositories/ReservaRespository.js:50-53 | building the two-column reservation entry gives the transaction's own INSERT text |
| BaseRepo.FindById | backend/src/repositories/BaseRepository.js:13-19 | a row comes back exactly when one has the id, and it is a stored row with that id |
| BaseRepo.Create | backend/src/repositories/BaseRepository.js:21-34 | the table gains exactly the new row under the next id; from a table whose ids are all below the counter, the lookup returns exactly the row written and the property is kept |
| Fileiras.GroupByFileira | backend/src/services/CinemaService.js:82-90 | one key per row label present, keys distinct and in order of first appearance, and each key's array is exactly that row's seats in input order |
| Fileiras.ObjectKeysMembers | backend/src/services/CinemaService.js:97 | `Object.keys` enumerates exactly the keys inserted |
| Fileiras.ObjectKeysDistinct | backend/src/services/CinemaService.js:97 | `Object.keys` lists each key of the object once |
| Fileiras.ObjectKeysPlain | backend/src/services/CinemaService.js:99 | with no array-index keys, `Object.keys` order is insertion order |
| Fileiras.LayoutRows | backend/src/services/CinemaService.js:93-102 | `layout.fileiras` lists every row label of the seats, each once, in strictly increasing order; `layout.assentos` is the input unchanged |
| Fileiras.SeatsPerRow | backend/src/services/CinemaService.js:99 | `assentos_por_fileira` is 0 without seats and, when no row label is an array index, the size of the first-seen row |
| Fileiras.NumericRowCountedFirst | backend/src/services/CinemaService.js:99 | with rows "B", "B", "1" in that order, the numeric row "1" is counted rather than the first-seen row "B" |
| Service.ListarSessoes | backend/src/services/CinemaService.js:50-62 | fails with "Filme não encontrado" exactly when the database answers and has no such film; otherwise returns the film exactly as `Filmes.FindById` found or fabricated it, and the showtime query's listing unchanged: exactly `Sessoes.Listing` in its order when the query answers, exactly the two fabricated showtimes `Sessoes.MockSessions(filmeId)` when it fails |
| Service.UnknownFilmWhileDown | backend/src/services/CinemaService.js:52-58 | with the database down, an unknown film id is answered with fabricated film 1 next to showtimes that carry the requested id |
| Service.VisualizarAssentos | backend/src/services/CinemaService.js:71-104 | fails with "Sessão não encontrada" exactly when the database answers and has no such joined showtime; otherwise returns the showtime exactly as `Sessoes.FindById` gave it (so with the requested id) and a layout whose row list is strictly increasing: the seat map and its row labels when the seat query answers, the 50 fabricated seats `MockSeat(i, livre(i))` with rows A to E when it fails. In both cases the layout is the grouping `BuildLayout` of its own seat list |
| Service.MockRows | backend/src/repositories/AssentoRepository.js:30-42 | the fabricated room has exactly the row labels A to E |
| Controller.Respond | backend/src/controllers/CinemaController.js:98-106 | 200 with the value on success; on error, the message with 404 exactly when it is the endpoint's "not found" message, and 500 otherwise |
| Controller.ListarFilmes | backend/src/controllers/CinemaController.js:33-44 | 500 with the error's message exactly when the service throws; otherwise 200 with the list wrapped as `{ filmes }` |
| Controller.ListarSessoes | backend/src/controllers/CinemaController.js:55-77 | 404 with "Filme não encontrado" exactly when the database answers and has no such film; otherwise 200; 500 never occurs |
| Controller.VisualizarAssentos | backend/src/controllers/CinemaController.js:88-107 | 404 with "Sessão não encontrada" exactly when the database answers and has no such showtime; otherwise 200 with the service's body: the showtime exactly as `Sessoes.FindById` gave it, and a layout whose seats are the seat map when the seat query answers or the 50 fabricated seats `MockSeat(i, livre(i))` when it fails, grouped by `BuildLayout`; 500 never occurs |
| Controller.ConflictsAre409 | backend/src/controllers/CinemaController.js:146-157 | both messages the transaction throws are recognised as conflicts (409) |
| Controller.ToJson | backend/src/controllers/CinemaController.js:133-145 | the reservation body copies every field, with `numero` and `fileira` nested under `assento` |
| Controller.ReservarEndpoint | backend/src/controllers/CinemaController.js:118-145 | as written, the booking endpoint always answers 201 with a "confirmada" body for the requested pair. One row is appended exactly when the database answers and the pair is free and in service. The body then describes the stored row (the next id, the seat's number and row) when the read-back answers. Otherwise the body is the fabricated record: an id in 1..1000, seat A1 and the application clock `stamp` as its date |
| Controller.ConflictAnsweredAsCreated | backend/src/repositories/ReservaRespository.js:75-87 | as written, a booking for an already-booked pair is answered 201 "confirmada" with a fabricated id in 1..1000 and seat A1, while nothing is stored |
| Controller.ReservarEndpointCorrected | backend/src/controllers/CinemaController.js:146-157 | with the transaction's errors reaching the controller: the answer is 201, 400 or 409, and 201 exactly when a body is sent; 201 means one row was appended under the returned id; 201 exactly when the pair is bookable (the database answers, the seat is in service, the pair is free) and the read-back answers; an unavailable seat or a booked pair gives 409 with nothing stored; a database failure gives its error status and message with nothing stored; a bookable pair whose read-back fails is stored once and answered with the read-back's error |
| Controller.CorrectedConflict | backend/src/controllers/CinemaController.js:148-153 | corrected, a booked pair is refused with 409 and "Assento já reservado para esta sessão", and nothing changes |
| LayoutAssentos.NumLeIsTotalPreorder | frontend/src/components/LayoutAssentos.js:65 | comparing by the numeric value of the seat number is a total preorder |
| LayoutAssentos.OrganizarRows | frontend/src/components/LayoutAssentos.js:52-69 | one entry per row label present; each entry holds exactly the seats of its row, each as often as in the layout, sorted by seat number |
| LayoutAssentos.OrganizarNothing | frontend/src/components/LayoutAssentos.js:53 | no layout gives an empty object |
| LayoutAssentos.RenderedSeats | frontend/src/components/LayoutAssentos.js:96-100 | for a layout built by the service, every row the page iterates over has an entry, and a seat is drawn exactly when it is one of the layout's seats |
| LayoutAssentos.EnabledProceeds | frontend/src/components/LayoutAssentos.js:106-110 | an enabled button always passes the click guard; for a click that passes the guard, the button is disabled exactly when the seat is out of service |
| LayoutAssentos.GuardIgnoresMaintenance | frontend/src/components/LayoutAssentos.js:25 | a free seat under maintenance passes the click guard; only its disabled button stops it |
| LayoutAssentos.Click | frontend/src/components/LayoutAssentos.js:24-50 | a request is sent exactly when the seat is free, no booking is in flight and the user confirms; the layout reloads exactly on success or 409; the in-flight flag is cleared after a request and untouched otherwise; a 409 shows the "already booked by another customer" alert |
| LayoutAssentos.ReloadsOnSuccessOrConflict | frontend/src/components/LayoutAssentos.js:40-46 | for a confirmed click on a free seat, the page reloads exactly when the answer is a success or a 409 |
| Booking.OutcomeOf | frontend/src/components/LayoutAssentos.js:34-41 | the page sees success exactly for a 2xx status, and otherwise the error with that status |
| Booking.StaleClickReportsSuccess | backend/src/repositories/ReservaRespository.js:75-87 | as written, a click on a seat shown free but booked since then yields the success alert and a reload, with nothing stored |
| Booking.StaleClickReportsConflict | frontend/src/components/LayoutAssentos.js:41-43 | corrected, the same click yields the conflict alert and a reload, with nothing stored |
| Booking.BookedSeatShowsOccupied | backend/src/repositories/AssentoRepository.js:14-19 | a free, in-service seat booked by the transaction shows "ocupado" on the next seat map, even if reading the row back fails |

## Behaviour as written

The code behaves as follows in places where one might expect otherwise, and the model follows it:
- **Status ignores `disponivel`.** A seat's status depends only on reservations (AssentoRepository.js:14-19). A seat out of service and unbooked is "livre", not occupied.
- **No "not found" in the seat map.** The seat map of an unknown showtime is empty rather than an error (AssentoRepository.js:20). The service still answers 404, through its own showtime lookup.
- **No "not found" in the transaction.** It never checks the showtime or the seat's room. A missing seat id is reported as "Assento indisponível". Whether the `INSERT` then succeeds for an unknown showtime depends on the database schema, which is not part of this model (see Left out).
- **No transient-failure outcome.** A store failure inside the transaction is turned into a fabricated successful record. So is each of the two conflicts (see Findings).
- **A failed read-back leaves its row.** If the read-back after the commit fails, the row stays, and the caller still gets a fabricated record.

## Findings

| source | as written | input that shows it | evidently intended | confidence | as-written member | corrected member |
|---|---|---|---|---|---|---|
| backend/src/repositories/ReservaRespository.js:75-87 | the outer `catch` meant for database failures also catches the two conflict errors. It returns a fabricated "confirmada" record for them, so the controller's 409 branch (CinemaController.js:146-153) is never reached | the database is up; request a seat already booked for that showtime | a conflict reaches the controller and is answered 409 with its message, and nothing is stored | high; not executed | Controller.ReservarEndpoint, shown by Controller.ConflictAnsweredAsCreated and Reservas.MutualExclusionAsServed | Controller.ReservarEndpointCorrected, proved by Controller.CorrectedConflict and Reservas.MutualExclusion |

## Left out

- Real concurrency. The `FOR UPDATE` lock serialises contenders for a seat, so transactions are modelled as atomic steps applied one after another; interleavings are not modelled.
- Connection handling is not modelled: `beginTransaction`, `commit`, `rollback` and `release` have no failure modes of their own. A failure is either before the commit (nothing stored) or in the read-back (row stored).
- SQL text execution, the MySQL driver and the pool configuration. The tables are abstract sequences of rows, and the driver's error text is the `reason` of `Health.Fails`.
- MySQL collation. `ORDER BY a.fileira` and `ORDER BY s.data, s.horario` are modelled as code-point order, whereas a case-insensitive collation would order "a" and "B" differently.
- JavaScript's default `sort()` compares UTF-16 code units. It is modelled as code-point order, which agrees with it on strings within the Basic Multilingual Plane.
- The string-typed route parameters (`req.params`) and `parseInt` of ids in the fallbacks are not modelled. Ids are integers throughout.
- LayoutAssentos.NumLeIsTotalPreorder: `parseInt` of a seat number without leading digits gives `NaN`, and the comparator then reports "equal" to everything. The model uses 0 instead, which is a consistent order. The subtraction `parseInt(a) - parseInt(b)` works on doubles, exact only up to 2^53; `Text.LeadingNumber` is an unbounded integer. So two seat numbers above 2^53 that round to the same double compare as equal on the page but are ordered by the model.
- Assentos.SeatLeIsTotalPreorder: `CAST(numero AS UNSIGNED)` is modelled as the value of the leading digits. Leading spaces and a sign are not modelled. MySQL's cast saturates at 18446744073709551615 (2^64 - 1), while the model's value is unbounded. So seat numbers above that bound, which MySQL sorts as equal, are ordered by the model.
- Express routing and the server setup are not modelled.
- The HTTP client's logging interceptors are not modelled: they pass responses and errors through unchanged.
- React rendering, the loading state and the navigation are not modelled.
- Alerts are modelled only by their message. The confirmation dialog is the `confirma` argument.
- `FilmeRepository.findAtivos` is outside the core. `Controller.ListarFilmes` takes the service's answer as a parameter.
- `BaseRepository.findAll` is not modelled: no modelled operation uses it.
- `Math.random()` is a parameter (`draw`, `livre`). The two clocks are parameters too: `now` is the database's column default for a stored row, and `stamp` is the application's `new Date().toISOString()` in the fabricated record. The fabricated id `floor(random*1000)+1` is written as `draw % 1000 + 1`.
- Schema defaults are assumed. Every inserted reservation gets status "confirmada" and `data_reserva` equal to the transaction's `now`.
- Foreign keys are not modelled. The schema is not part of this model, and the store accepts a reservation for any showtime id. With a foreign key on `reserva.sessao_id`, the `INSERT` for an unknown showtime would fail and roll back, and the wrapper would fabricate a record with nothing stored. `Reservas.Transaction` and `Reservas.ReservesForUnknownShowtime` describe the store without that key.
- Ties in `ORDER BY` are not modelled as MySQL leaves them. The order of rows with equal row label and number, of duplicate join rows, and of showtimes with equal date and time is unspecified in MySQL. The model fixes a stable order: input order among ties. `Assentos.FindBySessao` and `Service.VisualizarAssentos` state equality with that one order.
- `parseInt` is modelled as the value of the leading decimal digits (`Text.LeadingNumber`). Leading whitespace, a sign and the `0x` prefix are not modelled.
- Primary keys are assumed. The joins take the first room, film or showtime row with an id.
- A row label such as "constructor", which names an inherited property of a JavaScript object, is not modelled. In the source it would make the grouping push onto a function and throw.
- Fileiras.SeatsPerRow: states `assentos_por_fileira` only when no row label is an array index. The numeric-label case is shown by the single example `Fileiras.NumericRowCountedFirst`.
- BaseRepo.Create: models only the successful path. `BaseRepository.create` catches nothing, so a failing INSERT would throw to its caller; no modelled operation calls `create`.
- BaseRepo.PlaceholdersMatchValues: states the placeholder count only for table and column names without `?`. Identifiers are interpolated unquoted, so a `?` inside one would add a placeholder.

=== FILE: assentos.dfy ===
/**
 * The seat repository (`AssentoRepository.findBySessao`): the seat map of a
 * showtime. Its query takes the seats of the showtime's room, marks each
 * `livre` or `ocupado` by a left join on that showtime's reservations, and
 * orders them by row label, then by the numeric value of the seat number.
 * When the database fails it returns a fabricated 5 x 10 room instead.
 */
module Assentos {
  import opened Schema
  import opened Seqs
  import opened Text

  datatype Status = Livre | Ocupado

  /**
   * A row of the seat map: the seat's columns plus the derived `status`. The
   * fabricated rows carry no `sala_id`, hence the option.
   */
  datatype SeatView = SeatView(id: int, salaId: Option<int>, fileira: string, numero: string, disponivel: bool, status: Status)

  function View(a: Seat, status: Status): SeatView {
    SeatView(a.id, Some(a.salaId), a.fileira, a.numero, a.disponivel, status)
  }

  /** The status a seat should show for a showtime: taken iff a reservation holds the pair. */
  function StatusOf(rs: seq<Reservation>, sessaoId: int, assentoId: int): Status {
    if Booked(rs, sessaoId, assentoId) then Ocupado else Livre
  }

  /** The room of the showtime, by subquery; absent (SQL `NULL`) for an unknown showtime. */
  function RoomOf(sessions: seq<Session>, sessaoId: int): Option<int> {
    var rows := Filter(sessions, (s: Session) => s.id == sessaoId);
    if |rows| == 0 then None else Some(rows[0].salaId)
  }

  /**
   * The rows one seat contributes to the left join of seats with this
   * showtime's reservations: one `ocupado` row per matching reservation, or
   * a single `livre` row when none matches.
   */
  function JoinRows(a: Seat, rs: seq<Reservation>, sessaoId: int): (r: seq<SeatView>)
    ensures |r| > 0
    ensures forall v :: v in r <==> v == View(a, StatusOf(rs, sessaoId, a.id))
  {
    var matches := PairRows(rs, sessaoId, a.id);
    PairRowsFound(rs, sessaoId, a.id);
    if |matches| == 0 then [View(a, Livre)]
    else
      var r := seq(|matches|, _ => View(a, Ocupado));
      assert r[0] in r;
      r
  }

  function JoinAll(seats: seq<Seat>, rs: seq<Reservation>, sessaoId: int): seq<SeatView> {
    if |seats| == 0 then [] else JoinRows(seats[0], rs, sessaoId) + JoinAll(seats[1..], rs, sessaoId)
  }

  /** The seat map's order: by row label, then by the numeric value of the seat number. */
  predicate SeatLe(x: SeatView, y: SeatView) {
    || StrLt(x.fileira, y.fileira)
    || (x.fileira == y.fileira && LeadingNumber(x.numero) <= LeadingNumber(y.numero))
  }

  /** The seats of a room, in table order. */
  function RoomSeats(seats: seq<Seat>, salaId: int): seq<Seat> {
    Filter(seats, (a: Seat) => a.salaId == salaId)
  }

  /** The query of `findBySessao`, when the database answers. */
  function SeatMap(st: Store, sessaoId: int): seq<SeatView> {
    match RoomOf(st.sessions, sessaoId)
    case None => []
    case Some(sala) => SortBy(JoinAll(RoomSeats(st.seats, sala), st.reservations, sessaoId), SeatLe)
  }

  lemma SeatLeIsTotalPreorder()
    ensures TotalPreorder(SeatLe)
  {
    forall x: SeatView, y: SeatView
      ensures SeatLe(x, y) || SeatLe(y, x)
    {
      StrLeTotal(x.fileira, y.fileira);
    }
    forall x: SeatView, y: SeatView, z: SeatView | SeatLe(x, y) && SeatLe(y, z)
      ensures SeatLe(x, z)
    {
      if StrLt(x.fileira, y.fileira) && StrLt(y.fileira, z.fileira) {
        StrLeTransitive(x.fileira, y.fileira, z.fileira);
        if x.fileira == z.fileira {
          StrLeAntisymmetric(x.fileira, y.fileira);
        }
      }
    }
  }

  /** The seat map is ordered by row label, then by seat number read as a number. */
  lemma SeatMapSorted(st: Store, sessaoId: int)
    ensures SortedBy(SeatMap(st, sessaoId), SeatLe)
  {
    if RoomOf(st.sessions, sessaoId).Some? {
      SeatLeIsTotalPreorder();
      SortBySorted(JoinAll(RoomSeats(st.seats, RoomOf(st.sessions, sessaoId).value), st.reservations, sessaoId), SeatLe);
    }
  }

  lemma {:induction false} JoinAllMembers(seats: seq<Seat>, rs: seq<Reservation>, sessaoId: int, v: SeatView)
    ensures v in JoinAll(seats, rs, sessaoId) <==> exists a :: a in seats && v == View(a, StatusOf(rs, sessaoId, a.id))
  {
    if |seats| > 0 {
      JoinAllMembers(seats[1..], rs, sessaoId, v);
      if v in JoinAll(seats[1..], rs, sessaoId) {
        var a :| a in seats[1..] && v == View(a, StatusOf(rs, sessaoId, a.id));
        assert a in seats;
      }
      if exists a :: a in seats && v == View(a, StatusOf(rs, sessaoId, a.id)) {
        var a :| a in seats && v == View(a, StatusOf(rs, sessaoId, a.id));
        if a != seats[0] {
          assert a in seats[1..];
        }
      }
    }
  }

  /**
   * The seat map holds exactly the seats of the showtime's room, each with the
   * status its reservations for this showtime give it, whatever its
   * `disponivel` flag; an unknown showtime has an empty map.
   */
  lemma SeatMapMembers(st: Store, sessaoId: int, v: SeatView)
    ensures v in SeatMap(st, sessaoId)
            <==> exists a :: a in st.seats && Some(a.salaId) == RoomOf(st.sessions, sessaoId)
                             && v == View(a, StatusOf(st.reservations, sessaoId, a.id))
  {
    match RoomOf(st.sessions, sessaoId)
    case None =>
    case Some(sala) =>
      var seats := RoomSeats(st.seats, sala);
      SortByMembers(JoinAll(seats, st.reservations, sessaoId), SeatLe, v);
      JoinAllMembers(seats, st.reservations, sessaoId, v);
  }

  /** The seat map row a seat gets from a ledger holding at most one row per pair. */
  function Views(seats: seq<Seat>, rs: seq<Reservation>, sessaoId: int): (r: seq<SeatView>)
    ensures |r| == |seats|
    ensures forall i :: 0 <= i < |seats| ==> r[i] == View(seats[i], StatusOf(rs, sessaoId, seats[i].id))
  {
    if |seats| == 0 then [] else [View(seats[0], StatusOf(rs, sessaoId, seats[0].id))] + Views(seats[1..], rs, sessaoId)
  }

  /** With the ledger invariant, the left join yields each seat exactly once. */
  lemma {:induction false} JoinAllOnePerSeat(seats: seq<Seat>, rs: seq<Reservation>, sessaoId: int)
    requires UniquePairs(rs)
    ensures JoinAll(seats, rs, sessaoId) == Views(seats, rs, sessaoId)
  {
    if |seats| > 0 {
      var a := seats[0];
      AtMostOneRow(rs, sessaoId, a.id);
      PairRowsFound(rs, sessaoId, a.id);
      var first := JoinRows(a, rs, sessaoId);
      assert first == [View(a, StatusOf(rs, sessaoId, a.id))] by {
        assert first[0] in first;
      }
      JoinAllOnePerSeat(seats[1..], rs, sessaoId);
    }
  }

  /**
   * With the ledger invariant, the seat map is a permutation of the room's
   * seats, one row each.
   */
  lemma SeatMapOnePerSeat(st: Store, sessaoId: int, sala: int)
    requires UniquePairs(st.reservations) && RoomOf(st.sessions, sessaoId) == Some(sala)
    ensures multiset(SeatMap(st, sessaoId)) == multiset(Views(RoomSeats(st.seats, sala), st.reservations, sessaoId))
  {
    JoinAllOnePerSeat(RoomSeats(st.seats, sala), st.reservations, sessaoId);
  }

  lemma {:induction false} JoinAllOtherShowtime(seats: seq<Seat>, rs: seq<Reservation>, r: Reservation, sessaoId: int)
    requires r.sessaoId != sessaoId
    ensures JoinAll(seats, rs + [r], sessaoId) == JoinAll(seats, rs, sessaoId)
  {
    if |seats| > 0 {
      var p := (x: Reservation) => IsPair(x, sessaoId, seats[0].id);
      FilterAppend(rs, [r], p);
      assert PairRows(rs + [r], sessaoId, seats[0].id) == PairRows(rs, sessaoId, seats[0].id);
      JoinAllOtherShowtime(seats[1..], rs, r, sessaoId);
    }
  }

  /** A reservation for another showtime leaves this showtime's seat map as it was. */
  lemma SeatMapIgnoresOtherShowtimes(st: Store, r: Reservation, sessaoId: int)
    requires r.sessaoId != sessaoId
    ensures SeatMap(st.(reservations := st.reservations + [r]), sessaoId) == SeatMap(st, sessaoId)
  {
    match RoomOf(st.sessions, sessaoId)
    case None =>
    case Some(sala) =>
      JoinAllOtherShowtime(RoomSeats(st.seats, sala), st.reservations, r, sessaoId);
  }

  /** Row labels of the fabricated room. */
  const MockFileiras: seq<string> := ["A", "B", "C", "D", "E"]

  /** The `i`-th fabricated seat (from 0): row `i / 10`, number `i % 10 + 1`, id `i + 1`. */
  function MockSeat(i: nat, livre: bool): (a: SeatView)
    requires i < 50
    ensures a.id == i + 1 && a.fileira == MockFileiras[i / 10] && LeadingNumber(a.numero) == i % 10 + 1
    ensures a.disponivel && a.salaId.None? && (a.status == Livre <==> livre)
  {
    LeadingNumberOfDecimal(i % 10 + 1);
    SeatView(i + 1, None, MockFileiras[i / 10], Decimal(i % 10 + 1), true, if livre then Livre else Ocupado)
  }

  /**
   * The fallback of `findBySessao`: rows A to E, numbers 1 to 10, pushed in
   * row-major order. `livre(i)` stands for the random draw made for the
   * `i`-th seat, which leaves it free with probability 0.7.
   */
  method MockSeats(livre: nat -> bool) returns (assentos: seq<SeatView>)
    ensures |assentos| == 50
    ensures forall i :: 0 <= i < 50 ==> assentos[i] == MockSeat(i, livre(i))
  {
    assentos := [];
    var f := 0;
    while f < |MockFileiras|
      invariant 0 <= f <= 5 && |assentos| == 10 * f
      invariant forall i :: 0 <= i < |assentos| ==> assentos[i] == MockSeat(i, livre(i))
    {
      var numero := 1;
      while numero <= 10
        invariant 1 <= numero <= 11 && |assentos| == 10 * f + numero - 1
        invariant forall i :: 0 <= i < |assentos| ==> assentos[i] == MockSeat(i, livre(i))
      {
        var i := |assentos|;
        var a := SeatView(i + 1, None, MockFileiras[f], Decimal(numero), true, if livre(i) then Livre else Ocupado);
        MockSeatAt(i, livre(i), f, numero);
        PushMockSeat(assentos, livre, a);
        assentos := assentos + [a];
        numero := numero + 1;
      }
      f := f + 1;
    }
  }

  lemma DivTen(i: int, f: int, n: int)
    requires 0 <= n < 10 && i == 10 * f + n
    ensures i / 10 == f && i % 10 == n
  {
  }

  /** The seat the nested loops push for row `f` and number `numero` is the `i`-th fabricated seat. */
  lemma MockSeatAt(i: nat, livre: bool, f: nat, numero: nat)
    requires f < 5 && 1 <= numero <= 10 && i == 10 * f + numero - 1
    ensures SeatView(i + 1, None, MockFileiras[f], Decimal(numero), true, if livre then Livre else Ocupado)
            == MockSeat(i, livre)
  {
    DivTen(i, f, numero - 1);
  }

  /** Appending the next fabricated seat extends the fabricated prefix. */
  lemma PushMockSeat(assentos: seq<SeatView>, livre: nat -> bool, a: SeatView)
    requires |assentos| < 50
    requires forall i :: 0 <= i < |assentos| ==> assentos[i] == MockSeat(i, livre(i))
    requires a == MockSeat(|assentos|, livre(|assentos|))
    ensures forall j :: 0 <= j <= |assentos| ==> (assentos + [a])[j] == MockSeat(j, livre(j))
  {
  }

  lemma MockFileirasOrdered(k: nat, l: nat)
    requires k < l < 5
    ensures StrLt(MockFileiras[k], MockFileiras[l])
  {
  }

  lemma MockSeatLe(i: nat, j: nat, li: bool, lj: bool)
    requires i < j < 50
    ensures SeatLe(MockSeat(i, li), MockSeat(j, lj))
  {
  }

  /** The fabricated room is already in seat-map order: "10" after "9" in every row. */
  lemma MockSeatsSorted(livre: nat -> bool)
    ensures SortedBy(seq(50, i requires 0 <= i < 50 => MockSeat(i, livre(i))), SeatLe)
  {
    var s := seq(50, i requires 0 <= i < 50 => MockSeat(i, livre(i)));
    forall i, j | 0 <= i < j < 50
      ensures SeatLe(s[i], s[j])
    {
      MockSeatLe(i, j, livre(i), livre(j));
    }
  }

  /**
   * `findBySessao`: the query's rows when the database answers, the
   * fabricated room otherwise.
   */
  method FindBySessao(st: Store, health: Health, sessaoId: int, livre: nat -> bool) returns (rows: seq<SeatView>)
    ensures health.Answers? ==> rows == SeatMap(st, sessaoId)
    ensures health.Fails? ==> |rows| == 50 && forall i :: 0 <= i < 50 ==> rows[i] == MockSeat(i, livre(i))
  {
    if health.Fails? {
      rows := MockSeats(livre);
    } else {
      rows := SeatMap(st, sessaoId);
    }
  }
}

=== FILE: baserepo.dfy ===
/**
 * The generic repository (`BaseRepository`): `findById` as a keyed lookup
 * and `create`, which builds a parameterised `INSERT` from the entries of a
 * data object, runs it, and reads the new row back by its generated id.
 * A data object is given as its entries in enumeration order, which is the
 * order both `Object.keys` and `Object.values` follow.
 */
module BaseRepo {
  import opened Schema
  import opened Seqs
  import opened Text

  /** A bound parameter or stored column value. */
  datatype SqlValue = Num(n: int) | Str(s: string)

  /** A stored row: its generated id and its column values. */
  datatype Row = Row(id: int, fields: seq<(string, SqlValue)>)

  /** A table with its auto-increment counter. */
  datatype Table = Table(name: string, rows: seq<Row>, nextId: int)

  /** The column names: the data object's keys, in enumeration order. */
  function Columns(data: seq<(string, SqlValue)>): (r: seq<string>)
    ensures |r| == |data|
    ensures forall i :: 0 <= i < |data| ==> r[i] == data[i].0
  {
    if |data| == 0 then [] else [data[0].0] + Columns(data[1..])
  }

  /** The statement's parameters: the data object's values, in the same order. */
  function Values(data: seq<(string, SqlValue)>): (r: seq<SqlValue>)
    ensures |r| == |data|
    ensures forall i :: 0 <= i < |data| ==> r[i] == data[i].1
  {
    if |data| == 0 then [] else [data[0].1] + Values(data[1..])
  }

  /** One `?` placeholder per column. */
  function Marks(n: nat): (r: seq<string>)
    ensures |r| == n && forall i :: 0 <= i < n ==> r[i] == "?"
  {
    if n == 0 then [] else Marks(n - 1) + ["?"]
  }

  /** The statement text of `create`. */
  function InsertSql(table: string, data: seq<(string, SqlValue)>): string {
    "INSERT INTO " + table + " (" + Join(Columns(data), ", ") + ") VALUES (" + Join(Marks(|data|), ", ") + ")"
  }

  /** The statement text of `findById`. */
  function FindByIdSql(table: string): string {
    "SELECT * FROM " + table + " WHERE id = ?"
  }

  /** The column list holds no `?`; the placeholder list holds one per entry. */
  lemma ListCounts(data: seq<(string, SqlValue)>)
    requires forall i :: 0 <= i < |data| ==> Count(data[i].0, '?') == 0
    ensures Count(Join(Columns(data), ", "), '?') == 0
    ensures Count(Join(Marks(|data|), ", "), '?') == |data|
  {
    CountAbsent(", ", '?');
    CountJoin(Columns(data), ", ", '?', 0);
    assert Count("?", '?') == 1;
    CountJoin(Marks(|data|), ", ", '?', 1);
  }

  /**
   * When neither the table name nor any column name contains `?`, the
   * statement holds exactly one placeholder per entry, so the parameter list
   * (one value per entry, in column order) binds every placeholder once.
   */
  lemma PlaceholdersMatchValues(table: string, data: seq<(string, SqlValue)>)
    requires Count(table, '?') == 0
    requires forall i :: 0 <= i < |data| ==> Count(data[i].0, '?') == 0
    ensures Count(InsertSql(table, data), '?') == |data| == |Values(data)|
    ensures forall i :: 0 <= i < |data| ==> Columns(data)[i] == data[i].0 && Values(data)[i] == data[i].1
  {
    ListCounts(data);
    KeywordsHoldNoMark();
    CountSeven("INSERT INTO ", table, " (", Join(Columns(data), ", "), ") VALUES (", Join(Marks(|data|), ", "), ")", '?');
  }

  /** The fixed parts of the `INSERT` text hold no `?`. */
  lemma KeywordsHoldNoMark()
    ensures Count("INSERT INTO ", '?') == 0 && Count(" (", '?') == 0
    ensures Count(") VALUES (", '?') == 0 && Count(")", '?') == 0
  {
    IntoHoldsNoMark();
    ValuesHoldsNoMark();
    CountAbsent(" (", '?');
    CountAbsent(")", '?');
  }

  lemma IntoHoldsNoMark()
    ensures Count("INSERT INTO ", '?') == 0
  {
    CountAbsent("INSERT INTO ", '?');
  }

  lemma ValuesHoldsNoMark()
    ensures Count(") VALUES (", '?') == 0
  {
    CountAbsent(") VALUES (", '?');
  }

  lemma CountSeven(a: string, b: string, c: string, d: string, e: string, f: string, g: string, x: char)
    ensures Count(a + b + c + d + e + f + g, x)
            == Count(a, x) + Count(b, x) + Count(c, x) + Count(d, x) + Count(e, x) + Count(f, x) + Count(g, x)
  {
    CountAppend(a, b, x);
    CountAppend(a + b, c, x);
    CountAppend(a + b + c, d, x);
    CountAppend(a + b + c + d, e, x);
    CountAppend(a + b + c + d + e, f, x);
    CountAppend(a + b + c + d + e + f, g, x);
  }

  /** The two-column reservation entry yields the transaction's own `INSERT` text. */
  lemma ReservaInsert(sessaoId: SqlValue, assentoId: SqlValue)
    ensures InsertSql("reserva", [("sessao_id", sessaoId), ("assento_id", assentoId)])
            == "INSERT INTO reserva (sessao_id, assento_id) VALUES (?, ?)"
  {
    var data := [("sessao_id", sessaoId), ("assento_id", assentoId)];
    ReservaColumns(sessaoId, assentoId);
    TwoMarks();
    assert InsertSql("reserva", data)
           == "INSERT INTO " + "reserva" + " (" + "sessao_id, assento_id" + ") VALUES (" + "?, ?" + ")";
    ReservaInsertText();
  }

  lemma ReservaColumns(sessaoId: SqlValue, assentoId: SqlValue)
    ensures Join(Columns([("sessao_id", sessaoId), ("assento_id", assentoId)]), ", ") == "sessao_id, assento_id"
  {
    var data := [("sessao_id", sessaoId), ("assento_id", assentoId)];
    assert data[1..] == [("assento_id", assentoId)] && data[1..][1..] == [];
    assert Columns(data) == ["sessao_id", "assento_id"];
    assert ["sessao_id", "assento_id"][1..] == ["assento_id"];
  }

  lemma TwoMarks()
    ensures Join(Marks(2), ", ") == "?, ?"
  {
    assert Marks(1) == ["?"];
    assert Marks(2) == ["?", "?"];
    assert ["?", "?"][1..] == ["?"];
  }

  lemma ReservaInsertText()
    ensures "INSERT INTO " + "reserva" + " (" + "sessao_id, assento_id" + ") VALUES (" + "?, ?" + ")"
            == "INSERT INTO reserva (sessao_id, assento_id) VALUES (?, ?)"
  {
    assert "INSERT INTO " + "reserva" == "INSERT INTO reserva";
    assert "INSERT INTO reserva" + " (" == "INSERT INTO reserva (";
    assert "INSERT INTO reserva (" + "sessao_id, assento_id" == "INSERT INTO reserva (sessao_id, assento_id";
    assert "INSERT INTO reserva (sessao_id, assento_id" + ") VALUES ("
           == "INSERT INTO reserva (sessao_id, assento_id) VALUES (";
    assert "INSERT INTO reserva (sessao_id, assento_id) VALUES (" + "?, ?"
           == "INSERT INTO reserva (sessao_id, assento_id) VALUES (?, ?";
  }

  /** `findById`: the first row with the id, if any. */
  function FindById(t: Table, id: int): (r: Option<Row>)
    ensures r.Some? <==> exists row :: row in t.rows && row.id == id
    ensures r.Some? ==> r.value in t.rows && r.value.id == id
  {
    var rows := Filter(t.rows, (row: Row) => row.id == id);
    if |rows| == 0 then
      assert forall row :: row in t.rows && row.id == id ==> row in rows;
      None
    else
      assert rows[0] in rows;
      Some(rows[0])
  }

  /** Every stored id is below the auto-increment counter. */
  predicate Fresh(t: Table) {
    forall row :: row in t.rows ==> row.id < t.nextId
  }

  /**
   * `create`: append the row under the next generated id, then look that id
   * up. From a table whose ids are all below the counter, the row read back
   * is exactly the row written, and the counter stays ahead.
   */
  function Create(t: Table, data: seq<(string, SqlValue)>): (r: (Table, Option<Row>))
    ensures r.0.name == t.name && r.0.nextId == t.nextId + 1
    ensures r.0.rows == t.rows + [Row(t.nextId, data)]
    ensures Fresh(t) ==> r.1 == Some(Row(t.nextId, data)) && Fresh(r.0)
  {
    var t' := t.(rows := t.rows + [Row(t.nextId, data)], nextId := t.nextId + 1);
    (t', FindById(t', t.nextId))
  }
}

=== FILE: booking.dfy ===
/**
 * One booking seen end to end: the endpoint's answer as the seat-map page
 * receives it. The HTTP client resolves on a 2xx status and rejects with the
 * response otherwise.
 */
module Booking {
  import opened Schema
  import opened Reservas
  import opened Assentos
  import opened Controller
  import opened LayoutAssentos

  /** What the page's `try`/`catch` sees of a response. */
  function OutcomeOf<T>(r: Response<T>): (o: Outcome)
    ensures o.Success? <==> 200 <= r.status < 300
    ensures !o.Success? ==> o == HttpError(r.status)
  {
    if 200 <= r.status < 300 then Success else HttpError(r.status)
  }

  /**
   * As written, a user clicking a seat shown free on a stale map that
   * someone else has since booked is told the booking succeeded, though
   * nothing was stored for them.
   */
  lemma StaleClickReportsSuccess(
    st: Store, sessaoId: int, seat: SeatView, now: string, readBack: Health, draw: nat, stamp: string)
    requires seat.status == Livre && Booked(st.reservations, sessaoId, seat.id)
    ensures var r := ReservarEndpoint(st, sessaoId, seat.id, now, Answers, readBack, draw, stamp);
            && r.0 == st
            && Click(seat, false, true, OutcomeOf(r.1)) == ClickEffect(true, Sucesso(seat), true, false)
  {
  }

  /**
   * Corrected, the same click is answered 409: the page says the seat was
   * taken by another customer and reloads the map.
   */
  lemma StaleClickReportsConflict(st: Store, sessaoId: int, seat: SeatView, now: string, readBack: Health)
    requires seat.status == Livre && Booked(st.reservations, sessaoId, seat.id) && InService(st.seats, seat.id)
    ensures var r := ReservarEndpointCorrected(st, sessaoId, seat.id, now, Answers, readBack);
            && r.0 == st
            && Click(seat, false, true, OutcomeOf(r.1)) == ClickEffect(true, Conflito, true, false)
  {
  }

  /**
   * A seat that was free for the showtime shows as taken on the next seat map
   * once the transaction has stored its row, even if reading the row back
   * then fails.
   */
  lemma BookedSeatShowsOccupied(st: Store, sessaoId: int, assentoId: int, now: string, readBack: Health)
    requires InService(st.seats, assentoId) && !Booked(st.reservations, sessaoId, assentoId)
    ensures StatusOf(st.reservations, sessaoId, assentoId) == Livre
    ensures StatusOf(Transaction(st, sessaoId, assentoId, now, Answers, readBack).store.reservations, sessaoId, assentoId)
            == Ocupado
  {
    var run := Transaction(st, sessaoId, assentoId, now, Answers, readBack);
    var row := Reservation(st.nextReservaId, sessaoId, assentoId, now, Confirmada);
    assert run.store.reservations == st.reservations + [row];
    assert row in run.store.reservations;
  }
}

=== FILE: controller.dfy ===
/**
 * The HTTP layer (`CinemaController`): each endpoint calls the service and
 * turns its value into a JSON body with 200 or 201, and its error message
 * into a status code. The booking endpoint is given twice: as written, where
 * the repository's outer `catch` leaves nothing for the 409 branch to see,
 * and as evidently intended, where the transaction's errors reach it.
 */
module Controller {
  import opened Schema
  import opened Text
  import opened Reservas
  import Service
  import Sessoes
  import Assentos
  import Fileiras

  datatype Body<T> = Json(payload: T) | ErrorJson(error: string)

  datatype Response<T> = Response(status: int, body: Body<T>)

  /**
   * The `try`/`catch` shape of the three read endpoints: the value with 200,
   * or the message with 404 when it is the endpoint's "not found" message and
   * 500 otherwise.
   */
  function Respond<T>(served: Result<T, string>, notFound: Option<string>): (r: Response<T>)
    ensures served.Ok? <==> r.status == 200
    ensures served.Ok? ==> r.body == Json(served.value)
    ensures served.Err? ==> r.body == ErrorJson(served.error)
    ensures r.status == 404 <==> served.Err? && notFound == Some(served.error)
    ensures r.status in {200, 404, 500}
  {
    match served
    case Ok(v) => Response(200, Json(v))
    case Err(msg) => Response(if notFound == Some(msg) then 404 else 500, ErrorJson(msg))
  }

  /** `{ filmes }`, the body of a successful film listing. */
  datatype FilmesJson = FilmesJson(filmes: seq<Film>)

  /** `listarFilmes`: the active-film list wrapped as `{ filmes }`, or 500 with the error's message. */
  function ListarFilmes(served: Result<seq<Film>, string>): (r: Response<FilmesJson>)
    ensures r.status == 200 || r.status == 500
    ensures r.status == 500 <==> served.Err?
    ensures served.Ok? ==> r.body == Json(FilmesJson(served.value))
    ensures served.Err? ==> r.body == ErrorJson(served.error)
  {
    match served
    case Ok(filmes) => Respond(Ok(FilmesJson(filmes)), None)
    case Err(msg) => Respond(Err(msg), None)
  }

  /**
   * `listarSessoes`: 404 exactly when the database answers and has no such
   * film; the 500 branch is never taken, since every lookup behind it falls
   * back to fabricated data instead of throwing.
   */
  function ListarSessoes(st: Store, filmeHealth: Health, sessoesHealth: Health, filmeId: int, data: Option<string>)
    : (r: Response<Service.SessoesDoFilme>)
    ensures r.status == 200 || r.status == 404
    ensures r.status == 404 <==> filmeHealth.Answers? && !(exists f :: f in st.films && f.id == filmeId)
    ensures r.status == 404 ==> r.body == ErrorJson(Service.FilmeNaoEncontrado)
  {
    Respond(Service.ListarSessoes(st, filmeHealth, sessoesHealth, filmeId, data), Some(Service.FilmeNaoEncontrado))
  }

  /** `visualizarAssentos`: 404 exactly when the database answers and has no such showtime; never 500. */
  method VisualizarAssentos(st: Store, sessaoHealth: Health, assentosHealth: Health, sessaoId: int, livre: nat -> bool)
    returns (r: Response<Service.Visualizacao>)
    ensures r.status == 200 || r.status == 404
    ensures r.status == 404 <==>
              sessaoHealth.Answers? && !(exists s :: s in st.sessions && s.id == sessaoId && Sessoes.Joined(st, s).Some?)
    ensures r.status == 200 ==> r.body.Json? && r.body.payload.sessao.id == sessaoId
    ensures r.status == 200 ==> Some(r.body.payload.sessao) == Sessoes.FindById(st, sessaoHealth, sessaoId)
    ensures r.status == 404 ==> r.body == ErrorJson(Service.SessaoNaoEncontrada)
    ensures r.status == 200 && assentosHealth.Answers? ==> r.body.payload.layout.assentos == Assentos.SeatMap(st, sessaoId)
    ensures r.status == 200 && assentosHealth.Fails? ==>
              && |r.body.payload.layout.assentos| == 50
              && forall i :: 0 <= i < 50 ==> r.body.payload.layout.assentos[i] == Assentos.MockSeat(i, livre(i))
    ensures r.status == 200 ==> r.body.payload.layout == Fileiras.BuildLayout(r.body.payload.layout.assentos)
  {
    var served := Service.VisualizarAssentos(st, sessaoHealth, assentosHealth, sessaoId, livre);
    r := Respond(served, Some(Service.SessaoNaoEncontrada));
  }

  /** The status of a failed booking: 409 for a conflict, recognised by its wording; 400 otherwise. */
  function ReservaStatus(msg: string): int {
    if Contains(msg, "já reservado") || Contains(msg, "indisponível") then 409 else 400
  }

  /** Both conflicts the transaction raises are recognised as conflicts. */
  lemma ConflictsAre409()
    ensures ReservaStatus(Message(SeatUnavailable)) == 409
    ensures ReservaStatus(Message(AlreadyReserved)) == 409
  {
    UnavailableIsConflict();
    ReservedIsConflict();
  }

  lemma UnavailableIsConflict()
    ensures Contains(Indisponivel, "indisponível")
  {
    ContainsAt(Indisponivel, "indisponível", 8);
  }

  lemma ReservedIsConflict()
    ensures Contains(JaReservado, "já reservado")
  {
    assert JaReservado[8..20] == "já reservado" by {
      assert JaReservado == "Assento " + "já reservado" + " para esta sessão";
    }
    ContainsAt(JaReservado, "já reservado", 8);
  }

  /** `assento: { numero, fileira }` inside the reservation body. */
  datatype AssentoJson = AssentoJson(numero: string, fileira: string)

  /** The `reserva` body of a 201. */
  datatype ReservaJson = ReservaJson(
    id: int, sessaoId: int, assentoId: int, assento: AssentoJson, dataReserva: string, status: string)

  function ToJson(r: ReservaRecord): (j: ReservaJson)
    ensures j.id == r.id && j.sessaoId == r.sessaoId && j.assentoId == r.assentoId
    ensures j.assento.numero == r.numero && j.assento.fileira == r.fileira
    ensures j.dataReserva == r.dataReserva && j.status == r.status
  {
    ReservaJson(r.id, r.sessaoId, r.assentoId, AssentoJson(r.numero, r.fileira), r.dataReserva, r.status)
  }

  /**
   * `reservarAssento` as written, over `createWithTransaction`: the service
   * always returns a record, so the endpoint always answers 201 "confirmada".
   * The body describes the stored row only when the pair was bookable and
   * the read-back answered; otherwise it is the fabricated seat A1.
   */
  function ReservarEndpoint(
    st: Store, sessaoId: int, assentoId: int, now: string, health: Health, readBack: Health, draw: nat, stamp: string)
    : (r: (Store, Response<ReservaJson>))
    ensures r.1.status == 201 && r.1.body.Json? && r.1.body.payload.status == Confirmada
    ensures r.1.body.payload.sessaoId == sessaoId && r.1.body.payload.assentoId == assentoId
    ensures r.0 == st || InsertedOne(st, r.0, sessaoId, assentoId, now)
    ensures Bookable(st, sessaoId, assentoId, health) <==> InsertedOne(st, r.0, sessaoId, assentoId, now)
    ensures Bookable(st, sessaoId, assentoId, health) && readBack.Answers? ==>
              && r.1.body.payload.id == st.nextReservaId
              && r.1.body.payload.dataReserva == now
              && exists a :: a in st.seats && a.id == assentoId && a.disponivel
                             && r.1.body.payload.assento == AssentoJson(a.numero, a.fileira)
    ensures !Bookable(st, sessaoId, assentoId, health) || readBack.Fails? ==>
              && 1 <= r.1.body.payload.id <= 1000
              && r.1.body.payload.assento == AssentoJson("1", "A")
              && r.1.body.payload.dataReserva == stamp
  {
    var c := CreateWithTransaction(st, sessaoId, assentoId, now, health, readBack, draw, stamp);
    (c.store, Response(201, Json(ToJson(c.record))))
  }

  /**
   * As written, a seat already booked for the showtime is answered 201 with
   * a fabricated confirmation, while nothing is stored.
   */
  lemma ConflictAnsweredAsCreated(
    st: Store, sessaoId: int, assentoId: int, now: string, readBack: Health, draw: nat, stamp: string)
    requires Booked(st.reservations, sessaoId, assentoId)
    ensures var r := ReservarEndpoint(st, sessaoId, assentoId, now, Answers, readBack, draw, stamp);
            && r.0 == st
            && r.1.status == 201
            && r.1.body.payload.status == Confirmada
            && 1 <= r.1.body.payload.id <= 1000
            && r.1.body.payload.assento == AssentoJson("1", "A")
  {
  }

  /**
   * `reservarAssento` as evidently intended: the transaction's outcome
   * reaches the controller, success as 201 and errors through the
   * conflict test.
   */
  function ReservarEndpointCorrected(
    st: Store, sessaoId: int, assentoId: int, now: string, health: Health, readBack: Health)
    : (r: (Store, Response<ReservaJson>))
    ensures r.1.status in {201, 400, 409}
    ensures r.1.status == 201 <==> r.1.body.Json?
    ensures r.1.status == 201 ==>
              && InsertedOne(st, r.0, sessaoId, assentoId, now)
              && r.1.body.payload.id == st.nextReservaId
              && r.1.body.payload.status == Confirmada
    ensures health.Answers? && (!InService(st.seats, assentoId) || Booked(st.reservations, sessaoId, assentoId)) ==>
              r.0 == st && r.1.status == 409
    ensures health.Answers? && InService(st.seats, assentoId) && !Booked(st.reservations, sessaoId, assentoId) ==>
              InsertedOne(st, r.0, sessaoId, assentoId, now)
    ensures r.1.status == 201 <==> Bookable(st, sessaoId, assentoId, health) && readBack.Answers?
    ensures !Bookable(st, sessaoId, assentoId, health) ==> r.0 == st
    ensures health.Fails? ==> r.0 == st && r.1 == Response(ReservaStatus(health.reason), ErrorJson(health.reason))
    ensures Bookable(st, sessaoId, assentoId, health) && readBack.Fails? ==>
              && InsertedOne(st, r.0, sessaoId, assentoId, now)
              && r.1 == Response(ReservaStatus(readBack.reason), ErrorJson(readBack.reason))
  {
    var run := Transaction(st, sessaoId, assentoId, now, health, readBack);
    ConflictsAre409();
    match run.result
    case Ok(record) => (run.store, Response(201, Json(ToJson(record))))
    case Err(e) => (run.store, Response(ReservaStatus(Message(e)), ErrorJson(Message(e))))
  }

  /** Corrected, a booked seat is refused with 409 and the transaction's message. */
  lemma CorrectedConflict(st: Store, sessaoId: int, assentoId: int, now: string, readBack: Health)
    requires InService(st.seats, assentoId) && Booked(st.reservations, sessaoId, assentoId)
    ensures var r := ReservarEndpointCorrected(st, sessaoId, assentoId, now, Answers, readBack);
            r.0 == st && r.1 == Response(409, ErrorJson(JaReservado))
  {
  }
}

=== FILE: fileiras.dfy ===
/**
 * Grouping seats by row label into a plain JavaScript object, as both the
 * seat-layout service (`visualizarAssentos`) and the seat-map component
 * (`organizarAssentosPorFileira`) do: an array is opened for a row label
 * the first time it is seen, and each seat is pushed onto its row's array.
 * Also the layout summary the service derives from the object.
 */
module Fileiras {
  import opened Schema
  import opened Seqs
  import opened Text
  import opened Assentos

  /** A JavaScript object of arrays: its keys in insertion order, and its contents. */
  datatype Grouping = Grouping(keys: seq<string>, groups: map<string, seq<SeatView>>)

  /** The seats of one row, in their original order. */
  function InRow(seats: seq<SeatView>, fileira: string): seq<SeatView> {
    Filter(seats, (a: SeatView) => a.fileira == fileira)
  }

  predicate HasRow(seats: seq<SeatView>, fileira: string) {
    exists a :: a in seats && a.fileira == fileira
  }

  /**
   * Where a row label first occurs among the seats: the index of its first
   * seat, or `|seats|` when no seat has it (see `FirstIndexSpec`).
   */
  function FirstIndex(seats: seq<SeatView>, fileira: string): (r: nat)
    ensures r <= |seats|
    decreases |seats|
  {
    if |seats| == 0 then 0
    else
      var r0 := FirstIndex(seats[..|seats| - 1], fileira);
      if r0 < |seats| - 1 then r0 else if seats[|seats| - 1].fileira == fileira then |seats| - 1 else |seats|
  }

  /** `FirstIndex` is the first seat of the row, and lies past the end exactly when the row is absent. */
  lemma {:induction false} FirstIndexSpec(seats: seq<SeatView>, fileira: string)
    ensures FirstIndex(seats, fileira) < |seats| <==> HasRow(seats, fileira)
    ensures FirstIndex(seats, fileira) < |seats| ==> seats[FirstIndex(seats, fileira)].fileira == fileira
    ensures forall q :: 0 <= q < FirstIndex(seats, fileira) && q < |seats| ==> seats[q].fileira != fileira
    decreases |seats|
  {
    if |seats| > 0 {
      var init, last := seats[..|seats| - 1], seats[|seats| - 1];
      assert seats == init + [last];
      AppendHasRow(init, last, fileira);
      FirstIndexSpec(init, fileira);
    }
  }

  /** One step of the `forEach`: open the row's array on first sight, then push. */
  function Push(g: Grouping, a: SeatView): Grouping {
    if a.fileira in g.groups then Grouping(g.keys, g.groups[a.fileira := g.groups[a.fileira] + [a]])
    else Grouping(g.keys + [a.fileira], g.groups[a.fileira := [a]])
  }

  /**
   * The `forEach` over the seats. The object ends up with one key per row
   * label, in order of first appearance, each holding exactly that row's
   * seats in input order.
   */
  function GroupByFileira(seats: seq<SeatView>): (g: Grouping)
    ensures Grouped(seats, g)
    ensures |seats| > 0 ==> |g.keys| > 0 && g.keys[0] == seats[0].fileira
    decreases |seats|
  {
    if |seats| == 0 then Grouping([], map[])
    else
      var init, last := seats[..|seats| - 1], seats[|seats| - 1];
      var g0 := GroupByFileira(init);
      assert seats == init + [last];
      PushGrouped(init, last, g0);
      assert |init| > 0 ==> init[0] == seats[0];
      Push(g0, last)
  }

  /**
   * The object holds one key per row label, in order of first appearance,
   * each holding exactly that row's seats in input order.
   */
  ghost predicate Grouped(seats: seq<SeatView>, g: Grouping) {
    && (forall i, j :: 0 <= i < j < |g.keys| ==> FirstIndex(seats, g.keys[i]) < FirstIndex(seats, g.keys[j]))
    && Distinct(g.keys)
    && (forall k :: k in g.keys <==> k in g.groups)
    && (forall k :: k in g.groups <==> HasRow(seats, k))
    && (forall k :: k in g.groups ==> g.groups[k] == InRow(seats, k))
  }

  /** One step of the `forEach` keeps the object grouped. */
  lemma PushGrouped(init: seq<SeatView>, last: SeatView, g0: Grouping)
    requires Grouped(init, g0)
    ensures Grouped(init + [last], Push(g0, last))
    ensures |Push(g0, last).keys| > 0
    ensures |g0.keys| > 0 ==> Push(g0, last).keys[0] == g0.keys[0]
    ensures |g0.keys| == 0 ==> Push(g0, last).keys[0] == last.fileira
  {
    var g := Push(g0, last);
    forall k
      ensures HasRow(init + [last], k) <==> HasRow(init, k) || k == last.fileira
      ensures k in g.groups ==> g.groups[k] == InRow(init + [last], k)
    {
      PushRow(init, last, g0, k);
    }
    PushKeepsOrder(init, last, g0);
  }

  lemma FirstIndexAppend(init: seq<SeatView>, last: SeatView, k: string)
    ensures FirstIndex(init + [last], k)
            == if HasRow(init, k) then FirstIndex(init, k) else if last.fileira == k then |init| else |init| + 1
  {
    assert (init + [last])[..|init|] == init;
    FirstIndexSpec(init, k);
  }

  /** Pushing keeps the keys in order of first appearance: a new key is first seen at the pushed seat. */
  lemma PushKeepsOrder(init: seq<SeatView>, last: SeatView, g0: Grouping)
    requires Grouped(init, g0)
    ensures var g := Push(g0, last);
            forall i, j :: 0 <= i < j < |g.keys| ==> FirstIndex(init + [last], g.keys[i]) < FirstIndex(init + [last], g.keys[j])
  {
    forall k | k in g0.keys
      ensures FirstIndex(init + [last], k) == FirstIndex(init, k) < |init|
    {
      FirstIndexSpec(init, k);
      FirstIndexAppend(init, last, k);
    }
    if last.fileira !in g0.groups {
      FirstIndexAppend(init, last, last.fileira);
      NewKeyLast(init + [last], g0.keys, last.fileira, |init|);
    }
  }

  /** Appending a key first seen at `n` to keys first seen before `n` keeps them in order. */
  lemma NewKeyLast(seats: seq<SeatView>, keys: seq<string>, k: string, n: nat)
    requires forall i, j :: 0 <= i < j < |keys| ==> FirstIndex(seats, keys[i]) < FirstIndex(seats, keys[j])
    requires forall x :: x in keys ==> FirstIndex(seats, x) < n
    requires FirstIndex(seats, k) == n
    ensures forall i, j :: 0 <= i < j < |keys + [k]| ==> FirstIndex(seats, (keys + [k])[i]) < FirstIndex(seats, (keys + [k])[j])
  {
    forall i, j | 0 <= i < j < |keys + [k]|
      ensures FirstIndex(seats, (keys + [k])[i]) < FirstIndex(seats, (keys + [k])[j])
    {
      assert (keys + [k])[i] == keys[i] && keys[i] in keys;
      if j < |keys| {
        assert (keys + [k])[j] == keys[j];
      }
    }
  }

  /** A row is present after one more seat iff it was before or is that seat's row. */
  lemma AppendHasRow(init: seq<SeatView>, last: SeatView, k: string)
    ensures HasRow(init + [last], k) <==> HasRow(init, k) || k == last.fileira
  {
    var seats := init + [last];
    if HasRow(seats, k) && k != last.fileira {
      var a :| a in seats && a.fileira == k;
      assert a in init;
    }
    if k == last.fileira {
      assert last in seats;
    }
    if HasRow(init, k) {
      var a :| a in init && a.fileira == k;
      assert a in seats;
    }
  }

  /** Pushing one more seat keeps every array equal to its row. */
  lemma PushRow(init: seq<SeatView>, last: SeatView, g0: Grouping, k: string)
    requires forall k :: k in g0.groups <==> HasRow(init, k)
    requires forall k :: k in g0.groups ==> g0.groups[k] == InRow(init, k)
    ensures HasRow(init + [last], k) <==> HasRow(init, k) || k == last.fileira
    ensures k in Push(g0, last).groups ==> Push(g0, last).groups[k] == InRow(init + [last], k)
  {
    AppendHasRow(init, last, k);
    var p := (a: SeatView) => a.fileira == k;
    FilterAppend(init, [last], p);
    assert InRow(init + [last], k) == InRow(init, k) + InRow([last], k);
    if k !in g0.groups {
      FilterKeepsNone(init, p);
    }
  }

  /**
   * `Object.keys` order: keys that are canonical array indices ("0", "7",
   * "42", below 2^32 - 1) come first in numeric order, then the others in
   * insertion order.
   */
  predicate IsArrayIndex(k: string) {
    && |k| > 0
    && AllDigits(k)
    && (k[0] != '0' || |k| == 1)
    && DigitsValue(k) < 0xFFFF_FFFF
  }

  predicate IndexLe(a: string, b: string) {
    LeadingNumber(a) <= LeadingNumber(b)
  }

  function ObjectKeys(insertion: seq<string>): seq<string> {
    SortBy(Filter(insertion, IsArrayIndex), IndexLe) + Filter(insertion, (k: string) => !IsArrayIndex(k))
  }

  lemma ObjectKeysMembers(insertion: seq<string>, k: string)
    ensures k in ObjectKeys(insertion) <==> k in insertion
  {
    SortByMembers(Filter(insertion, IsArrayIndex), IndexLe, k);
  }

  /** Enumeration neither repeats nor drops a key. */
  lemma ObjectKeysDistinct(insertion: seq<string>)
    requires Distinct(insertion)
    ensures Distinct(ObjectKeys(insertion))
  {
    var idx := Filter(insertion, IsArrayIndex);
    var rest := Filter(insertion, (k: string) => !IsArrayIndex(k));
    FilterDistinct(insertion, IsArrayIndex);
    FilterDistinct(insertion, (k: string) => !IsArrayIndex(k));
    SortByDistinct(idx, IndexLe);
    forall x | x in SortBy(idx, IndexLe)
      ensures x !in rest
    {
      SortByMembers(idx, IndexLe, x);
    }
    DistinctAppend(SortBy(idx, IndexLe), rest);
  }

  /** Without array-index keys, enumeration order is insertion order. */
  lemma ObjectKeysPlain(insertion: seq<string>)
    requires forall k :: k in insertion ==> !IsArrayIndex(k)
    ensures ObjectKeys(insertion) == insertion
  {
    FilterKeepsAll(insertion, (k: string) => !IsArrayIndex(k));
    FilterKeepsNone(insertion, IsArrayIndex);
  }

  /** The `layout` part of the `visualizarAssentos` answer. */
  datatype Layout = Layout(fileiras: seq<string>, assentosPorFileira: nat, assentos: seq<SeatView>)

  /**
   * The row labels in enumeration order, sorted as strings. The seat count
   * of the row enumerated first, or 0 when there is none. The seats
   * unchanged.
   */
  function BuildLayout(assentos: seq<SeatView>): Layout {
    var g := GroupByFileira(assentos);
    var order := ObjectKeys(g.keys);
    if |order| == 0 then Layout(SortBy(order, StrLe), 0, assentos)
    else
      ObjectKeysMembers(g.keys, order[0]);
      Layout(SortBy(order, StrLe), |g.groups[order[0]]|, assentos)
  }

  lemma StrLeIsTotalPreorder()
    ensures TotalPreorder(StrLe)
  {
    forall a: string, b: string
      ensures StrLe(a, b) || StrLe(b, a)
    {
      StrLeTotal(a, b);
    }
    forall a: string, b: string, c: string | StrLe(a, b) && StrLe(b, c)
      ensures StrLe(a, c)
    {
      StrLeTransitive(a, b, c);
    }
  }

  /**
   * `layout.fileiras` lists every row label of the seats once, in strictly
   * increasing order; `layout.assentos` is the input unchanged.
   */
  lemma LayoutRows(assentos: seq<SeatView>)
    ensures forall k :: k in BuildLayout(assentos).fileiras <==> HasRow(assentos, k)
    ensures forall i, j :: 0 <= i < j < |BuildLayout(assentos).fileiras| ==>
              StrLt(BuildLayout(assentos).fileiras[i], BuildLayout(assentos).fileiras[j])
    ensures BuildLayout(assentos).assentos == assentos
  {
    var g := GroupByFileira(assentos);
    var order := ObjectKeys(g.keys);
    var f := SortBy(order, StrLe);
    assert BuildLayout(assentos).fileiras == f;
    forall k
      ensures k in f <==> HasRow(assentos, k)
    {
      SortByMembers(order, StrLe, k);
      ObjectKeysMembers(g.keys, k);
    }
    StrLeIsTotalPreorder();
    SortBySorted(order, StrLe);
    ObjectKeysDistinct(g.keys);
    SortByDistinct(order, StrLe);
  }

  /**
   * `assentos_por_fileira` is 0 without seats; when no row label is an array
   * index, it is the size of the first-seen row.
   */
  lemma SeatsPerRow(assentos: seq<SeatView>)
    ensures |assentos| == 0 ==> BuildLayout(assentos).assentosPorFileira == 0
    ensures |assentos| > 0 && (forall a :: a in assentos ==> !IsArrayIndex(a.fileira)) ==>
              BuildLayout(assentos).assentosPorFileira == |InRow(assentos, assentos[0].fileira)|
  {
    var g := GroupByFileira(assentos);
    if |assentos| > 0 && (forall a :: a in assentos ==> !IsArrayIndex(a.fileira)) {
      forall k | k in g.keys
        ensures !IsArrayIndex(k)
      {
        assert HasRow(assentos, k);
      }
      ObjectKeysPlain(g.keys);
    }
  }

  /** Two seats of row "B" followed by one seat of row "1". */
  const MixedRows: seq<SeatView> := [SeatView(1, None, "B", "1", true, Livre), SeatView(2, None, "B", "2", true, Livre),
                                     SeatView(3, None, "1", "1", true, Livre)]

  lemma MixedRowsGrouping()
    ensures GroupByFileira(MixedRows).keys == ["B", "1"]
    ensures GroupByFileira(MixedRows).groups["1"] == [MixedRows[2]]
  {
    MixedRowsLabels();
    TwoKeys(MixedRows, GroupByFileira(MixedRows), "B", "1");
    MixedRowOne();
  }

  lemma MixedRowsLabels()
    ensures forall k :: HasRow(MixedRows, k) <==> k == "B" || k == "1"
  {
    forall k
      ensures HasRow(MixedRows, k) <==> k == "B" || k == "1"
    {
      if HasRow(MixedRows, k) {
        var x :| x in MixedRows && x.fileira == k;
      }
      assert MixedRows[0] in MixedRows && MixedRows[2] in MixedRows;
    }
  }

  lemma MixedRowOne()
    ensures InRow(MixedRows, "1") == [MixedRows[2]]
  {
    assert MixedRows[1..][1..] == [MixedRows[2]] && MixedRows[1..][1..][1..] == [];
  }

  /** A grouping of seats with exactly two row labels, the first seen being `a`, has keys `a`, `b`. */
  lemma TwoKeys(seats: seq<SeatView>, g: Grouping, a: string, b: string)
    requires Grouped(seats, g) && |g.keys| > 0 && g.keys[0] == a && a != b
    requires forall k :: HasRow(seats, k) <==> k == a || k == b
    ensures g.keys == [a, b]
  {
    assert b in g.keys;
    forall i | 1 <= i < |g.keys|
      ensures g.keys[i] == b
    {
      assert g.keys[i] in g.keys;
    }
    var rest := g.keys[1..];
    assert Distinct(rest);
    DistinctOnce(rest, b);
    ConstantCount(rest, b);
  }

  lemma OneIsArrayIndex()
    ensures IsArrayIndex("1") && !IsArrayIndex("B")
  {
  }

  /** A numeric row label is enumerated first: row "1" is counted though row "B" came first. */
  lemma NumericRowCountedFirst()
    ensures BuildLayout(MixedRows).assentosPorFileira == 1
  {
    MixedRowsGrouping();
    OneIsArrayIndex();
    var keys := ["B", "1"];
    assert Filter(keys, IsArrayIndex) == ["1"] by {
      assert keys[1..] == ["1"] && keys[1..][1..] == [];
    }
    assert ObjectKeys(keys)[0] == "1";
  }
}

=== FILE: filmes.dfy ===
/**
 * The one film lookup the showtime listing depends on
 * (`FilmeRepository.findById`): the row with that id, or, when the database
 * fails, the fabricated film with that id or else the first fabricated film.
 */
module Filmes {
  import opened Schema
  import opened Seqs

  /** The three films the repository fabricates. */
  const MockFilms: seq<Film> := [
    Film(1, "Avatar: O Caminho da Água", "Ficção Científica", 192, true),
    Film(2, "Top Gun: Maverick", "Ação", 131, true),
    Film(3, "Homem-Aranha", "Ação", 148, true)
  ]

  function FindById(st: Store, health: Health, id: int): (r: Option<Film>)
    ensures health.Fails? ==> r.Some? && r.value in MockFilms
    ensures health.Fails? && 1 <= id <= 3 ==> r == Some(MockFilms[id - 1])
    ensures health.Fails? && !(1 <= id <= 3) ==> r == Some(MockFilms[0])
    ensures health.Answers? ==> (r.Some? <==> exists f :: f in st.films && f.id == id)
    ensures health.Answers? && r.Some? ==> r.value in st.films && r.value.id == id
  {
    var rows := if health.Fails? then Filter(MockFilms, (f: Film) => f.id == id)
                else Filter(st.films, (f: Film) => f.id == id);
    if |rows| > 0 then
      assert rows[0] in rows;
      Some(rows[0])
    else if health.Fails? then
      Some(MockFilms[0])
    else
      assert forall f :: f in st.films && f.id == id ==> f in rows;
      None
  }
}

=== FILE: layout.dfy ===
/**
 * The seat-map component (`LayoutAssentos`): it groups the layout's seats by
 * row and sorts each row by seat number for display, disables the buttons of
 * seats that cannot be booked, ignores clicks on taken seats or while a
 * booking is in flight, and reloads the layout after a booking succeeds or is
 * refused with HTTP 409.
 */
module LayoutAssentos {
  import opened Schema
  import opened Seqs
  import opened Text
  import opened Assentos
  import opened Fileiras

  /** The page's numeric comparison of seat numbers, read as "a goes no later than b". */
  predicate NumLe(a: SeatView, b: SeatView) {
    LeadingNumber(a.numero) <= LeadingNumber(b.numero)
  }

  lemma NumLeIsTotalPreorder()
    ensures TotalPreorder(NumLe)
  {
  }

  /**
   * `organizarAssentosPorFileira`: no layout loaded gives `{}`; otherwise the
   * row grouping of `layout.assentos` with each row sorted by seat number.
   */
  function OrganizarPorFileira(layout: Option<Layout>): map<string, seq<SeatView>> {
    match layout
    case None => map[]
    case Some(l) =>
      var g := GroupByFileira(l.assentos);
      map k | k in g.groups :: SortBy(g.groups[k], NumLe)
  }

  /**
   * One entry per row label of the layout's seats; each entry holds exactly
   * the seats of that row, each as often as in the layout, sorted by number.
   */
  lemma OrganizarRows(l: Layout, k: string)
    ensures k in OrganizarPorFileira(Some(l)) <==> HasRow(l.assentos, k)
    ensures k in OrganizarPorFileira(Some(l)) ==>
              && SortedBy(OrganizarPorFileira(Some(l))[k], NumLe)
              && multiset(OrganizarPorFileira(Some(l))[k]) == multiset(InRow(l.assentos, k))
              && (forall v :: v in OrganizarPorFileira(Some(l))[k] <==> v in l.assentos && v.fileira == k)
  {
    var g := GroupByFileira(l.assentos);
    if k in g.groups {
      NumLeIsTotalPreorder();
      SortBySorted(g.groups[k], NumLe);
      forall v
        ensures v in OrganizarPorFileira(Some(l))[k] <==> v in l.assentos && v.fileira == k
      {
        SortByMembers(g.groups[k], NumLe, v);
      }
    }
  }

  lemma OrganizarNothing()
    ensures OrganizarPorFileira(None) == map[]
  {
  }

  /**
   * For a layout built by the service, every row label the page iterates
   * over, looking each up in the grouped object, has its entry, and a seat is
   * drawn exactly when it is one of the layout's seats.
   */
  lemma RenderedSeats(assentos: seq<SeatView>, v: SeatView)
    ensures forall f :: f in BuildLayout(assentos).fileiras ==> f in OrganizarPorFileira(Some(BuildLayout(assentos)))
    ensures (exists f :: f in BuildLayout(assentos).fileiras && v in OrganizarPorFileira(Some(BuildLayout(assentos)))[f])
            <==> v in assentos
  {
    var l := BuildLayout(assentos);
    LayoutRows(assentos);
    forall f | f in l.fileiras
      ensures f in OrganizarPorFileira(Some(l))
    {
      OrganizarRows(l, f);
    }
    OrganizarRows(l, v.fileira);
    if v in assentos {
      assert HasRow(assentos, v.fileira);
    }
    if exists f :: f in l.fileiras && v in OrganizarPorFileira(Some(l))[f] {
      var f :| f in l.fileiras && v in OrganizarPorFileira(Some(l))[f];
      OrganizarRows(l, f);
    }
  }

  /** The `disabled` attribute of a seat button. */
  predicate ButtonDisabled(a: SeatView, reservando: bool) {
    a.status != Livre || !a.disponivel || reservando
  }

  /** The first line of `reservarAssento`: the click goes on to the confirmation dialog. */
  predicate ClickProceeds(a: SeatView, reservando: bool) {
    a.status == Livre && !reservando
  }

  /** An enabled button always passes the handler's guard. */
  lemma EnabledProceeds(a: SeatView, reservando: bool)
    ensures !ButtonDisabled(a, reservando) ==> ClickProceeds(a, reservando)
    ensures ClickProceeds(a, reservando) ==> (ButtonDisabled(a, reservando) <==> !a.disponivel)
  {
  }

  /**
   * The handler's guard alone does not refuse a seat under maintenance: only
   * the disabled button keeps it from being booked.
   */
  lemma GuardIgnoresMaintenance()
    ensures var a := SeatView(1, Some(1), "A", "1", false, Livre);
            ClickProceeds(a, false) && ButtonDisabled(a, false)
  {
  }

  /** What the booking request came back with. */
  datatype Outcome = Success | HttpError(status: int) | NoResponse

  /** The visible result of one click. */
  datatype ClickEffect = ClickEffect(requested: bool, alert: string, reload: bool, reservandoAfter: bool)

  const Conflito := "Assento já foi reservado por outro cliente!"
  const Falha := "Erro ao reservar assento. Tente novamente."

  function Sucesso(a: SeatView): string {
    "Assento " + a.fileira + a.numero + " reservado com sucesso!"
  }

  /**
   * `reservarAssento`: the guard, the user's answer to `window.confirm`, then
   * the request; `finally` clears the in-flight flag.
   */
  function Click(a: SeatView, reservando: bool, confirma: bool, outcome: Outcome): (e: ClickEffect)
    ensures e.requested <==> ClickProceeds(a, reservando) && confirma
    ensures e.reload <==> e.requested && (outcome.Success? || outcome == HttpError(409))
    ensures e.requested ==> !e.reservandoAfter
    ensures !e.requested ==> e.reservandoAfter == reservando && e.alert == ""
    ensures e.requested && outcome.HttpError? && outcome.status == 409 ==> e.alert == Conflito
  {
    if !ClickProceeds(a, reservando) || !confirma then ClickEffect(false, "", false, reservando)
    else match outcome
      case Success => ClickEffect(true, Sucesso(a), true, false)
      case HttpError(status) =>
        if status == 409 then ClickEffect(true, Conflito, true, false)
        else ClickEffect(true, Falha, false, false)
      case NoResponse => ClickEffect(true, Falha, false, false)
  }

  /** The page reloads the layout exactly when the server's answer is a success or a conflict. */
  lemma ReloadsOnSuccessOrConflict(a: SeatView, outcome: Outcome)
    requires ClickProceeds(a, false)
    ensures Click(a, false, true, outcome).reload <==> outcome.Success? || outcome == HttpError(409)
  {
  }
}

=== FILE: reservas.dfy ===
/**
 * The reservation repository (`ReservaRepository`): the pair lookup and the
 * reservation transaction. The transaction locks the seat row with
 * `SELECT ... FOR UPDATE`, so concurrent reservers of one seat are
 * serialised; the model therefore treats one call as one atomic step on the
 * store. The transaction proper (`Transaction`) reports conflicts as errors;
 * its public wrapper (`CreateWithTransaction`) catches every error and
 * answers with a fabricated confirmed reservation instead.
 */
module Reservas {
  import opened Schema
  import opened Seqs

  const Indisponivel := "Assento indisponível"
  const JaReservado := "Assento já reservado para esta sessão"

  /** The errors the transaction can raise. */
  datatype TxError = SeatUnavailable | AlreadyReserved | StoreFailure(reason: string)

  /** The `message` of the JavaScript `Error` each case is thrown as. */
  function Message(e: TxError): string {
    match e
    case SeatUnavailable => Indisponivel
    case AlreadyReserved => JaReservado
    case StoreFailure(reason) => reason
  }

  /** A reservation row together with its seat's number and row label, or an imitation of one. */
  datatype ReservaRecord = ReservaRecord(
    id: int,
    sessaoId: int,
    assentoId: int,
    numero: string,
    fileira: string,
    dataReserva: string,
    status: string)

  /** Outcome of one transaction: the store after commit or rollback, and what it returned or threw. */
  datatype Run = Run(store: Store, result: Result<ReservaRecord, TxError>)

  /** The wrapper's outcome: it always returns a record. */
  datatype Created = Created(store: Store, record: ReservaRecord)

  /** Some seat row with this id is in service. */
  predicate InService(seats: seq<Seat>, assentoId: int) {
    exists a :: a in seats && a.id == assentoId && a.disponivel
  }

  /** `st'` is `st` with exactly one reservation row appended for the pair, under the next id. */
  predicate InsertedOne(st: Store, st': Store, sessaoId: int, assentoId: int, now: string) {
    st' == st.(
      reservations := st.reservations + [Reservation(st.nextReservaId, sessaoId, assentoId, now, Confirmada)],
      nextReservaId := st.nextReservaId + 1)
  }

  /** The locking query: the seat rows with that id that are in service. */
  function LockedSeatRows(seats: seq<Seat>, assentoId: int): seq<Seat> {
    Filter(seats, (a: Seat) => a.id == assentoId && a.disponivel)
  }

  /** The locking query finds a row exactly when the seat is in service. */
  lemma LockedSeatRowsFound(seats: seq<Seat>, assentoId: int)
    ensures |LockedSeatRows(seats, assentoId)| > 0 <==> InService(seats, assentoId)
  {
    var rows := LockedSeatRows(seats, assentoId);
    if |rows| > 0 {
      assert rows[0] in rows;
    }
    if InService(seats, assentoId) {
      var a :| a in seats && a.id == assentoId && a.disponivel;
      assert a in rows;
    }
  }

  /**
   * `findBySessaoAndAssento`: the first row for the pair; nothing when there
   * is none (`undefined`) or when the database fails (`null`).
   */
  function FindBySessaoAndAssento(st: Store, health: Health, sessaoId: int, assentoId: int): (r: Option<Reservation>)
    ensures r.Some? <==> health.Answers? && Booked(st.reservations, sessaoId, assentoId)
    ensures r.Some? ==> r.value in st.reservations && IsPair(r.value, sessaoId, assentoId)
  {
    var rows := PairRows(st.reservations, sessaoId, assentoId);
    PairRowsFound(st.reservations, sessaoId, assentoId);
    if health.Fails? || |rows| == 0 then None
    else
      assert rows[0] in rows;
      Some(rows[0])
  }

  /**
   * `createWithTransaction` without its outer `catch`: `health` is how the
   * statements up to the commit fare, `readBack` how the query after the
   * commit fares, `now` the timestamp the `data_reserva` column defaults to.
   * The seat row joined by the read-back is the row locked, seat ids being
   * the primary key.
   */
  function Transaction(st: Store, sessaoId: int, assentoId: int, now: string, health: Health, readBack: Health): (r: Run)
    ensures r.result == Err(SeatUnavailable)
            <==> health.Answers? && !InService(st.seats, assentoId)
    ensures r.result == Err(AlreadyReserved)
            <==> health.Answers? && InService(st.seats, assentoId) && Booked(st.reservations, sessaoId, assentoId)
    ensures r.store == st || InsertedOne(st, r.store, sessaoId, assentoId, now)
    ensures r.store != st
            <==> health.Answers? && InService(st.seats, assentoId) && !Booked(st.reservations, sessaoId, assentoId)
    ensures r.result.Err? && r.store != st ==> readBack.Fails? && r.result.error == StoreFailure(readBack.reason)
    ensures r.result.Ok?
            <==> health.Answers? && InService(st.seats, assentoId) && !Booked(st.reservations, sessaoId, assentoId)
                 && readBack.Answers?
    ensures r.result.Ok? ==>
              && r.store != st
              && r.result.value.id == st.nextReservaId
              && r.result.value.sessaoId == sessaoId
              && r.result.value.assentoId == assentoId
              && r.result.value.status == Confirmada
              && r.result.value.dataReserva == now
              && exists a :: a in st.seats && a.id == assentoId && a.disponivel
                             && a.numero == r.result.value.numero && a.fileira == r.result.value.fileira
    ensures UniquePairs(st.reservations) ==> UniquePairs(r.store.reservations)
  {
    if health.Fails? then Run(st, Err(StoreFailure(health.reason)))
    else
      var locked := LockedSeatRows(st.seats, assentoId);
      LockedSeatRowsFound(st.seats, assentoId);
      PairRowsFound(st.reservations, sessaoId, assentoId);
      if |locked| == 0 then Run(st, Err(SeatUnavailable))
      else if |PairRows(st.reservations, sessaoId, assentoId)| > 0 then Run(st, Err(AlreadyReserved))
      else
        assert locked[0] in locked;
        var row := Reservation(st.nextReservaId, sessaoId, assentoId, now, Confirmada);
        var st' := st.(reservations := st.reservations + [row], nextReservaId := st.nextReservaId + 1);
        assert st' != st by { assert |st'.reservations| != |st.reservations|; }
        assert UniquePairs(st.reservations) ==> UniquePairs(st'.reservations) by {
          if UniquePairs(st.reservations) {
            AppendFreshPair(st.reservations, row);
          }
        }
        if readBack.Fails? then Run(st', Err(StoreFailure(readBack.reason)))
        else Run(st', Ok(ReservaRecord(row.id, sessaoId, assentoId, locked[0].numero, locked[0].fileira, now, Confirmada)))
  }

  /**
   * The record the outer `catch` fabricates: id `floor(random * 1000) + 1`,
   * written here as `draw % 1000 + 1` for an arbitrary `draw`, seat A1, and
   * dated `stamp`, the application's own clock read in the `catch` (not the
   * database's clock that dates stored rows).
   */
  function Synthetic(sessaoId: int, assentoId: int, stamp: string, draw: nat): (r: ReservaRecord)
    ensures 1 <= r.id <= 1000
  {
    ReservaRecord(draw % 1000 + 1, sessaoId, assentoId, "1", "A", stamp, Confirmada)
  }

  /** A free, in-service pair with the database answering: the case in which the transaction commits. */
  predicate Bookable(st: Store, sessaoId: int, assentoId: int, health: Health) {
    health.Answers? && InService(st.seats, assentoId) && !Booked(st.reservations, sessaoId, assentoId)
  }

  /** `record` is the stored row for the pair under the next id, joined with an in-service seat of that id. */
  predicate StoredRecord(st: Store, record: ReservaRecord, sessaoId: int, assentoId: int, now: string) {
    && record.id == st.nextReservaId
    && record.sessaoId == sessaoId && record.assentoId == assentoId
    && record.dataReserva == now && record.status == Confirmada
    && exists a :: a in st.seats && a.id == assentoId && a.disponivel && a.numero == record.numero && a.fileira == record.fileira
  }

  /**
   * `createWithTransaction` as written: whatever the transaction throws,
   * including both conflicts, becomes a confirmed-looking record. A bookable
   * pair is stored, dated `now` by the database; the caller gets the stored
   * row when the read-back answers and otherwise a record fabricated from
   * `draw` and dated `stamp`, the application's own clock.
   */
  function CreateWithTransaction(
    st: Store, sessaoId: int, assentoId: int, now: string, health: Health, readBack: Health, draw: nat, stamp: string)
    : (r: Created)
    ensures r.record.status == Confirmada && r.record.sessaoId == sessaoId && r.record.assentoId == assentoId
    ensures r.store == st || InsertedOne(st, r.store, sessaoId, assentoId, now)
    ensures Bookable(st, sessaoId, assentoId, health) <==> InsertedOne(st, r.store, sessaoId, assentoId, now)
    ensures !Bookable(st, sessaoId, assentoId, health) ==> r.store == st
    ensures Bookable(st, sessaoId, assentoId, health) && readBack.Answers? ==> StoredRecord(st, r.record, sessaoId, assentoId, now)
    ensures !Bookable(st, sessaoId, assentoId, health) || readBack.Fails? ==> r.record == Synthetic(sessaoId, assentoId, stamp, draw)
    ensures health.Fails? ==> r.store == st && r.record == Synthetic(sessaoId, assentoId, stamp, draw)
    ensures health.Answers? && !InService(st.seats, assentoId) ==> r.store == st && r.record == Synthetic(sessaoId, assentoId, stamp, draw)
    ensures health.Answers? && Booked(st.reservations, sessaoId, assentoId) ==> r.store == st && r.record == Synthetic(sessaoId, assentoId, stamp, draw)
    ensures UniquePairs(st.reservations) ==> UniquePairs(r.store.reservations)
  {
    var run := Transaction(st, sessaoId, assentoId, now, health, readBack);
    match run.result
    case Ok(record) => Created(run.store, record)
    case Err(_) => Created(run.store, Synthetic(sessaoId, assentoId, stamp, draw))
  }

  /** One reservation request with the conditions it meets. */
  datatype Request = Request(
    sessaoId: int, assentoId: int, now: string, health: Health, readBack: Health, draw: nat, stamp: string)

  predicate ForPair(q: Request, sessaoId: int, assentoId: int) {
    q.sessaoId == sessaoId && q.assentoId == assentoId && q.health.Answers? && q.readBack.Answers?
  }

  /** Requests served one after another by the wrapper, as the seat lock serialises them. */
  function ServeAll(st: Store, qs: seq<Request>): (r: (Store, seq<ReservaRecord>))
    ensures |r.1| == |qs|
    decreases |qs|
  {
    if |qs| == 0 then (st, [])
    else
      var c := CreateWithTransaction(st, qs[0].sessaoId, qs[0].assentoId, qs[0].now, qs[0].health, qs[0].readBack, qs[0].draw, qs[0].stamp);
      var rest := ServeAll(c.store, qs[1..]);
      (rest.0, [c.record] + rest.1)
  }

  /** Requests served one after another by the transaction, its errors reaching the caller. */
  function TransactAll(st: Store, qs: seq<Request>): (r: (Store, seq<Result<ReservaRecord, TxError>>))
    ensures |r.1| == |qs|
    decreases |qs|
  {
    if |qs| == 0 then (st, [])
    else
      var run := Transaction(st, qs[0].sessaoId, qs[0].assentoId, qs[0].now, qs[0].health, qs[0].readBack);
      var rest := TransactAll(run.store, qs[1..]);
      (rest.0, [run.result] + rest.1)
  }

  /** No sequence of requests, whatever faults they meet, books a pair twice. */
  lemma {:induction false} ServeAllKeepsUniquePairs(st: Store, qs: seq<Request>)
    requires UniquePairs(st.reservations)
    ensures UniquePairs(ServeAll(st, qs).0.reservations)
    decreases |qs|
  {
    if |qs| > 0 {
      var c := CreateWithTransaction(st, qs[0].sessaoId, qs[0].assentoId, qs[0].now, qs[0].health, qs[0].readBack, qs[0].draw, qs[0].stamp);
      ServeAllKeepsUniquePairs(c.store, qs[1..]);
    }
  }

  /** Once a pair is booked, further healthy requests for it change nothing. */
  lemma {:induction false} BookedPairIsFrozen(st: Store, qs: seq<Request>, sessaoId: int, assentoId: int)
    requires Booked(st.reservations, sessaoId, assentoId)
    requires forall k :: 0 <= k < |qs| ==> ForPair(qs[k], sessaoId, assentoId)
    ensures TransactAll(st, qs).0 == st
    ensures forall k :: 0 <= k < |qs| ==>
              TransactAll(st, qs).1[k] == if InService(st.seats, assentoId) then Err(AlreadyReserved) else Err(SeatUnavailable)
    ensures ServeAll(st, qs).0 == st
    decreases |qs|
  {
    if |qs| > 0 {
      assert ForPair(qs[0], sessaoId, assentoId);
      BookedPairIsFrozen(st, qs[1..], sessaoId, assentoId);
    }
  }

  /**
   * Mutual exclusion: of any number of requests for one free, in-service pair,
   * the first succeeds, every later one is refused as already reserved, and
   * exactly one row holds the pair afterwards.
   */
  lemma MutualExclusion(st: Store, qs: seq<Request>, sessaoId: int, assentoId: int)
    requires InService(st.seats, assentoId) && !Booked(st.reservations, sessaoId, assentoId)
    requires |qs| > 0 && forall k :: 0 <= k < |qs| ==> ForPair(qs[k], sessaoId, assentoId)
    ensures TransactAll(st, qs).1[0].Ok?
    ensures forall k :: 1 <= k < |qs| ==> TransactAll(st, qs).1[k] == Err(AlreadyReserved)
    ensures |PairRows(TransactAll(st, qs).0.reservations, sessaoId, assentoId)| == 1
  {
    assert ForPair(qs[0], sessaoId, assentoId);
    var run := Transaction(st, sessaoId, assentoId, qs[0].now, Answers, Answers);
    var row := Reservation(st.nextReservaId, sessaoId, assentoId, qs[0].now, Confirmada);
    assert run.store.reservations == st.reservations + [row];
    assert row in run.store.reservations;
    forall k | 0 <= k < |qs[1..]|
      ensures ForPair(qs[1..][k], sessaoId, assentoId)
    {
      assert qs[1..][k] == qs[k + 1];
    }
    BookedPairIsFrozen(run.store, qs[1..], sessaoId, assentoId);
    forall k | 1 <= k < |qs|
      ensures TransactAll(st, qs).1[k] == Err(AlreadyReserved)
    {
      assert TransactAll(st, qs).1[k] == TransactAll(run.store, qs[1..]).1[k - 1];
      assert InService(run.store.seats, assentoId);
    }
    FilterAppend(st.reservations, [row], (r: Reservation) => IsPair(r, sessaoId, assentoId));
    assert |PairRows(st.reservations, sessaoId, assentoId)| == 0;
  }

  /**
   * When the first request's read-back fails after its commit, the pair is
   * booked once, yet no caller sees a success: the first gets the driver's
   * error and every later healthy one gets "já reservado".
   */
  lemma FailedReadBackHidesBooking(st: Store, qs: seq<Request>, sessaoId: int, assentoId: int)
    requires InService(st.seats, assentoId) && !Booked(st.reservations, sessaoId, assentoId)
    requires |qs| > 0 && qs[0].sessaoId == sessaoId && qs[0].assentoId == assentoId
    requires qs[0].health.Answers? && qs[0].readBack.Fails?
    requires forall k :: 1 <= k < |qs| ==> ForPair(qs[k], sessaoId, assentoId)
    ensures TransactAll(st, qs).1[0] == Err(StoreFailure(qs[0].readBack.reason))
    ensures forall k :: 1 <= k < |qs| ==> TransactAll(st, qs).1[k] == Err(AlreadyReserved)
    ensures |PairRows(TransactAll(st, qs).0.reservations, sessaoId, assentoId)| == 1
  {
    var run := Transaction(st, sessaoId, assentoId, qs[0].now, qs[0].health, qs[0].readBack);
    var row := Reservation(st.nextReservaId, sessaoId, assentoId, qs[0].now, Confirmada);
    assert run.store.reservations == st.reservations + [row];
    assert row in run.store.reservations;
    forall k | 0 <= k < |qs[1..]|
      ensures ForPair(qs[1..][k], sessaoId, assentoId)
    {
      assert qs[1..][k] == qs[k + 1];
    }
    BookedPairIsFrozen(run.store, qs[1..], sessaoId, assentoId);
    forall k | 1 <= k < |qs|
      ensures TransactAll(st, qs).1[k] == Err(AlreadyReserved)
    {
      assert TransactAll(st, qs).1[k] == TransactAll(run.store, qs[1..]).1[k - 1];
      assert InService(run.store.seats, assentoId);
    }
    FilterAppend(st.reservations, [row], (r: Reservation) => IsPair(r, sessaoId, assentoId));
    assert |PairRows(st.reservations, sessaoId, assentoId)| == 0;
  }

  /**
   * The same requests through the wrapper: the pair is still booked once,
   * yet every caller is handed a confirmed reservation.
   */
  lemma MutualExclusionAsServed(st: Store, qs: seq<Request>, sessaoId: int, assentoId: int)
    requires InService(st.seats, assentoId) && !Booked(st.reservations, sessaoId, assentoId)
    requires |qs| > 0 && forall k :: 0 <= k < |qs| ==> ForPair(qs[k], sessaoId, assentoId)
    ensures |PairRows(ServeAll(st, qs).0.reservations, sessaoId, assentoId)| == 1
    ensures forall k :: 0 <= k < |qs| ==> ServeAll(st, qs).1[k].status == Confirmada
  {
    assert ForPair(qs[0], sessaoId, assentoId);
    var c := CreateWithTransaction(st, sessaoId, assentoId, qs[0].now, Answers, Answers, qs[0].draw, qs[0].stamp);
    var row := Reservation(st.nextReservaId, sessaoId, assentoId, qs[0].now, Confirmada);
    assert c.store.reservations == st.reservations + [row];
    assert row in c.store.reservations;
    forall k | 0 <= k < |qs[1..]|
      ensures ForPair(qs[1..][k], sessaoId, assentoId)
    {
      assert qs[1..][k] == qs[k + 1];
    }
    BookedPairIsFrozen(c.store, qs[1..], sessaoId, assentoId);
    AllConfirmed(c.store, qs[1..]);
    FilterAppend(st.reservations, [row], (r: Reservation) => IsPair(r, sessaoId, assentoId));
    assert |PairRows(st.reservations, sessaoId, assentoId)| == 0;
  }

  lemma {:induction false} AllConfirmed(st: Store, qs: seq<Request>)
    ensures forall k :: 0 <= k < |qs| ==> ServeAll(st, qs).1[k].status == Confirmada
    decreases |qs|
  {
    if |qs| > 0 {
      var c := CreateWithTransaction(st, qs[0].sessaoId, qs[0].assentoId, qs[0].now, qs[0].health, qs[0].readBack, qs[0].draw, qs[0].stamp);
      AllConfirmed(c.store, qs[1..]);
    }
  }

  /**
   * The decision reads only the seat rows with that id and the rows for the
   * pair: the showtime, its room and the films play no part.
   */
  lemma DecisionIgnoresShowtimeAndRoom(st: Store, other: Store, sessaoId: int, assentoId: int, now: string)
    requires LockedSeatRows(other.seats, assentoId) == LockedSeatRows(st.seats, assentoId)
    requires PairRows(other.reservations, sessaoId, assentoId) == PairRows(st.reservations, sessaoId, assentoId)
    requires other.nextReservaId == st.nextReservaId
    ensures Transaction(other, sessaoId, assentoId, now, Answers, Answers).result
            == Transaction(st, sessaoId, assentoId, now, Answers, Answers).result
  {
  }

  /**
   * The transaction makes no showtime check: with no foreign key in the
   * store, a row is stored for showtime 99, which names no showtime.
   */
  lemma ReservesForUnknownShowtime()
    ensures Transaction(Store([], [], [Seat(7, 1, "A", "1", true)], [], [], 1), 99, 7, "t", Answers, Answers).result.Ok?
  {
  }
}

=== FILE: schema.dfy ===
/**
 * The relational store behind the cinema API, as immutable rows: films,
 * rooms (`sala`), seats (`assento`), showtimes (`sessao`) and reservations
 * (`reserva`), plus the auto-increment counter of the reservation table.
 * Whether the database answers at all is part of the model (`Health`):
 * the showtime, film, seat and reservation repositories catch driver errors
 * and answer with fabricated data (or, for the pair lookup, with nothing),
 * while the generic base repository lets them propagate.
 */
module Schema {
  import opened Seqs

  datatype Option<T> = None | Some(value: T)

  datatype Result<T, E> = Ok(value: T) | Err(error: E)

  datatype Film = Film(id: int, nome: string, genero: string, duracao: int, ativo: bool)

  datatype Room = Room(id: int, nome: string, capacidade: int)

  /** A physical seat; `disponivel` is the room-level "in service" flag. */
  datatype Seat = Seat(id: int, salaId: int, fileira: string, numero: string, disponivel: bool)

  datatype Session = Session(id: int, filmeId: int, salaId: int, data: string, horario: string, ativa: bool)

  /** A reservation row; `dataReserva` and `status` are filled from column defaults. */
  datatype Reservation = Reservation(id: int, sessaoId: int, assentoId: int, dataReserva: string, status: string)

  datatype Store = Store(
    films: seq<Film>,
    rooms: seq<Room>,
    seats: seq<Seat>,
    sessions: seq<Session>,
    reservations: seq<Reservation>,
    nextReservaId: int)

  /**
   * Whether the database answers a statement or raises a driver error
   * (connection refused, lock wait timeout, ...). Most repository operations
   * catch such errors and change their answer, so they are part of the model
   * rather than of its environment.
   */
  datatype Health = Answers | Fails(reason: string)

  /** Value of the `reserva.status` column for every row the system writes. */
  const Confirmada := "confirmada"

  predicate IsPair(r: Reservation, sessaoId: int, assentoId: int) {
    r.sessaoId == sessaoId && r.assentoId == assentoId
  }

  /** The duplicate test's query: the reservation rows for the showtime and seat, in table order. */
  function PairRows(rs: seq<Reservation>, sessaoId: int, assentoId: int): seq<Reservation> {
    Filter(rs, r => IsPair(r, sessaoId, assentoId))
  }

  /** Some reservation row holds this (sessao, assento) pair. */
  predicate Booked(rs: seq<Reservation>, sessaoId: int, assentoId: int) {
    exists r :: r in rs && IsPair(r, sessaoId, assentoId)
  }

  /** The pair query finds a row exactly when the pair is booked. */
  lemma PairRowsFound(rs: seq<Reservation>, sessaoId: int, assentoId: int)
    ensures |PairRows(rs, sessaoId, assentoId)| > 0 <==> Booked(rs, sessaoId, assentoId)
  {
    var rows := PairRows(rs, sessaoId, assentoId);
    if |rows| > 0 {
      assert rows[0] in rows;
    }
    if Booked(rs, sessaoId, assentoId) {
      var r :| r in rs && IsPair(r, sessaoId, assentoId);
      assert r in rows;
    }
  }

  /** The ledger invariant: no two reservation rows share a (sessao, assento) pair. */
  predicate UniquePairs(rs: seq<Reservation>) {
    forall i, j :: 0 <= i < j < |rs| ==> !IsPair(rs[j], rs[i].sessaoId, rs[i].assentoId)
  }

  lemma {:induction false} NoPairRows(rs: seq<Reservation>, sessaoId: int, assentoId: int)
    requires forall k :: 0 <= k < |rs| ==> !IsPair(rs[k], sessaoId, assentoId)
    ensures |PairRows(rs, sessaoId, assentoId)| == 0
  {
    if |rs| > 0 {
      NoPairRows(rs[1..], sessaoId, assentoId);
    }
  }

  lemma {:induction false} TwoPairRows(rs: seq<Reservation>, i: int, j: int)
    requires 0 <= i < j < |rs| && IsPair(rs[j], rs[i].sessaoId, rs[i].assentoId)
    ensures |PairRows(rs, rs[i].sessaoId, rs[i].assentoId)| >= 2
  {
    var s, a := rs[i].sessaoId, rs[i].assentoId;
    if i == 0 {
      assert rs[1..][j - 1] == rs[j];
      assert rs[j] in PairRows(rs[1..], s, a);
    } else {
      assert rs[1..][i - 1] == rs[i] && rs[1..][j - 1] == rs[j];
      TwoPairRows(rs[1..], i - 1, j - 1);
    }
  }

  /**
   * The invariant read as the ledger's promise: it holds exactly when the
   * lookup of every pair finds at most one row.
   */
  lemma {:induction false} UniquePairsIffAtMostOneRow(rs: seq<Reservation>)
    ensures UniquePairs(rs) <==> forall s, a :: |PairRows(rs, s, a)| <= 1
  {
    if UniquePairs(rs) {
      forall s, a
        ensures |PairRows(rs, s, a)| <= 1
      {
        AtMostOneRow(rs, s, a);
      }
    }
    if !UniquePairs(rs) {
      var i, j :| 0 <= i < j < |rs| && IsPair(rs[j], rs[i].sessaoId, rs[i].assentoId);
      TwoPairRows(rs, i, j);
    }
  }

  lemma {:induction false} AtMostOneRow(rs: seq<Reservation>, s: int, a: int)
    requires UniquePairs(rs)
    ensures |PairRows(rs, s, a)| <= 1
  {
    if |rs| > 0 {
      if IsPair(rs[0], s, a) {
        forall k | 0 <= k < |rs[1..]|
          ensures !IsPair(rs[1..][k], s, a)
        {
          assert rs[1..][k] == rs[k + 1];
        }
        NoPairRows(rs[1..], s, a);
      } else {
        AtMostOneRow(rs[1..], s, a);
      }
    }
  }

  /** Appending a row for a pair nobody holds keeps the invariant. */
  lemma AppendFreshPair(rs: seq<Reservation>, r: Reservation)
    requires UniquePairs(rs) && |PairRows(rs, r.sessaoId, r.assentoId)| == 0
    ensures UniquePairs(rs + [r])
  {
    forall i | 0 <= i < |rs|
      ensures !IsPair(r, rs[i].sessaoId, rs[i].assentoId)
    {
      assert rs[i] !in PairRows(rs, r.sessaoId, r.assentoId);
    }
  }
}

=== FILE: seqs.dfy ===
/**
 * Sequence helpers: `Filter` (a SQL `WHERE` or JavaScript `filter`) and a
 * stable insertion sort parameterised by a "less than or equal" relation. The
 * sort stands for the three orderings in the system: SQL `ORDER BY` in the
 * repositories, JavaScript `Array.prototype.sort` with a comparator (stable
 * since ES2019) and the default string `sort()`.
 */
module Seqs {

  /** The elements of `s` satisfying `p`, in their original order. */
  function Filter<T(!new)>(s: seq<T>, p: T -> bool): (r: seq<T>)
    ensures |r| <= |s|
    ensures forall x :: x in r <==> x in s && p(x)
  {
    if |s| == 0 then []
    else if p(s[0]) then [s[0]] + Filter(s[1..], p)
    else Filter(s[1..], p)
  }

  lemma {:induction false} FilterAppend<T(!new)>(a: seq<T>, b: seq<T>, p: T -> bool)
    ensures Filter(a + b, p) == Filter(a, p) + Filter(b, p)
  {
    if |a| > 0 {
      assert (a + b)[1..] == a[1..] + b;
      FilterAppend(a[1..], b, p);
    } else {
      assert a + b == b;
    }
  }

  /** Filtering depends only on which elements the predicate keeps. */
  lemma {:induction false} FilterExt<T(!new)>(s: seq<T>, p: T -> bool, q: T -> bool)
    requires forall x :: x in s ==> p(x) == q(x)
    ensures Filter(s, p) == Filter(s, q)
  {
    if |s| > 0 {
      FilterExt(s[1..], p, q);
    }
  }

  lemma {:induction false} FilterKeepsAll<T(!new)>(s: seq<T>, p: T -> bool)
    requires forall x :: x in s ==> p(x)
    ensures Filter(s, p) == s
  {
    if |s| > 0 {
      FilterKeepsAll(s[1..], p);
    }
  }

  lemma {:induction false} FilterKeepsNone<T(!new)>(s: seq<T>, p: T -> bool)
    requires forall x :: x in s ==> !p(x)
    ensures Filter(s, p) == []
  {
    if |s| > 0 {
      FilterKeepsNone(s[1..], p);
    }
  }

  /** `le` is total and transitive, so it sorts without ambiguity up to ties. */
  ghost predicate TotalPreorder<T(!new)>(le: (T, T) -> bool) {
    && (forall a, b :: le(a, b) || le(b, a))
    && (forall a, b, c :: le(a, b) && le(b, c) ==> le(a, c))
  }

  predicate SortedBy<T>(s: seq<T>, le: (T, T) -> bool) {
    forall i, j :: 0 <= i < j < |s| ==> le(s[i], s[j])
  }

  /** Places `x` before the first element it is `le` to, so earlier equals stay first. */
  function Insert<T>(x: T, s: seq<T>, le: (T, T) -> bool): (r: seq<T>)
    ensures multiset(r) == multiset(s) + multiset{x}
  {
    if |s| == 0 then [x]
    else if le(x, s[0]) then [x] + s
    else
      assert s == [s[0]] + s[1..];
      [s[0]] + Insert(x, s[1..], le)
  }

  function SortBy<T>(s: seq<T>, le: (T, T) -> bool): (r: seq<T>)
    ensures multiset(r) == multiset(s)
  {
    if |s| == 0 then []
    else
      assert s == [s[0]] + s[1..];
      Insert(s[0], SortBy(s[1..], le), le)
  }

  lemma {:induction false} InsertSorted<T(!new)>(x: T, s: seq<T>, le: (T, T) -> bool)
    requires TotalPreorder(le) && SortedBy(s, le)
    ensures SortedBy(Insert(x, s, le), le)
  {
    if |s| == 0 {
    } else if le(x, s[0]) {
      var r := [x] + s;
      forall i, j | 0 <= i < j < |r|
        ensures le(r[i], r[j])
      {
        if i == 0 && j > 1 {
          assert le(s[0], s[j - 1]);
        }
      }
    } else {
      assert le(s[0], x);
      var tail := Insert(x, s[1..], le);
      InsertSorted(x, s[1..], le);
      var r := [s[0]] + tail;
      forall i, j | 0 <= i < j < |r|
        ensures le(r[i], r[j])
      {
        if i == 0 {
          var y := tail[j - 1];
          assert y in multiset(tail);
          assert y == x || y in multiset(s[1..]);
          if y != x {
            var k :| 0 <= k < |s[1..]| && s[1..][k] == y;
            assert s[k + 1] == y;
          }
        } else {
          assert r[i] == tail[i - 1] && r[j] == tail[j - 1];
        }
      }
    }
  }

  /** The sort's output is ordered by `le`; with `SortBy`'s contract it is a sorted permutation. */
  lemma {:induction false} SortBySorted<T(!new)>(s: seq<T>, le: (T, T) -> bool)
    requires TotalPreorder(le)
    ensures SortedBy(SortBy(s, le), le)
  {
    if |s| > 0 {
      SortBySorted(s[1..], le);
      InsertSorted(s[0], SortBy(s[1..], le), le);
    }
  }

  /** Sorting keeps exactly the elements of the input. */
  lemma SortByMembers<T>(s: seq<T>, le: (T, T) -> bool, x: T)
    ensures x in SortBy(s, le) <==> x in s
  {
    assert x in SortBy(s, le) <==> x in multiset(SortBy(s, le));
    assert x in s <==> x in multiset(s);
  }

  predicate Distinct<T(==)>(s: seq<T>) {
    forall i, j :: 0 <= i < j < |s| ==> s[i] != s[j]
  }

  lemma {:induction false} InsertDistinct<T>(x: T, s: seq<T>, le: (T, T) -> bool)
    requires Distinct(s) && x !in s
    ensures Distinct(Insert(x, s, le))
  {
    if |s| > 0 && !le(x, s[0]) {
      var tail := Insert(x, s[1..], le);
      InsertDistinct(x, s[1..], le);
      assert s[0] !in multiset(tail) by {
        assert s[0] !in s[1..];
      }
      assert s[0] !in tail;
    }
  }

  /** Sorting a sequence without repetitions yields one without repetitions. */
  lemma {:induction false} SortByDistinct<T>(s: seq<T>, le: (T, T) -> bool)
    requires Distinct(s)
    ensures Distinct(SortBy(s, le))
  {
    if |s| > 0 {
      SortByDistinct(s[1..], le);
      assert s[0] !in s[1..];
      assert s[0] !in multiset(SortBy(s[1..], le));
      InsertDistinct(s[0], SortBy(s[1..], le), le);
    }
  }

  lemma {:induction false} FilterDistinct<T(!new)>(s: seq<T>, p: T -> bool)
    requires Distinct(s)
    ensures Distinct(Filter(s, p))
  {
    if |s| > 0 {
      FilterDistinct(s[1..], p);
      assert s[0] !in s[1..];
      assert s[0] !in Filter(s[1..], p);
    }
  }

  lemma DistinctAppend<T>(a: seq<T>, b: seq<T>)
    requires Distinct(a) && Distinct(b)
    requires forall x :: x in a ==> x !in b
    ensures Distinct(a + b)
  {
    forall i, j | 0 <= i < j < |a + b|
      ensures (a + b)[i] != (a + b)[j]
    {
      if i < |a| && j >= |a| {
        assert (a + b)[i] in a && (a + b)[j] in b;
      }
    }
  }

  /** A sequence without repetitions holds each value at most once. */
  lemma {:induction false} DistinctOnce<T>(s: seq<T>, x: T)
    requires Distinct(s)
    ensures multiset(s)[x] <= 1
  {
    if |s| > 0 {
      DistinctOnce(s[1..], x);
      assert s == [s[0]] + s[1..];
      assert s[0] !in s[1..];
    }
  }

  lemma {:induction false} ConstantCount<T>(s: seq<T>, x: T)
    requires forall i :: 0 <= i < |s| ==> s[i] == x
    ensures multiset(s)[x] == |s|
  {
    if |s| > 0 {
      ConstantCount(s[1..], x);
      assert s == [s[0]] + s[1..];
    }
  }
}

=== FILE: service.dfy ===
/**
 * The business layer (`CinemaService`): the showtimes of a film behind an
 * existence check on the film, and the seat layout of a showtime behind an
 * existence check on the showtime. Booking is a pass-through to
 * `Reservas.CreateWithTransaction`. Errors are the JavaScript `Error`
 * messages the controller inspects.
 */
module Service {
  import opened Schema
  import opened Assentos
  import opened Fileiras
  import opened Text
  import Filmes
  import Sessoes

  const FilmeNaoEncontrado := "Filme não encontrado"
  const SessaoNaoEncontrada := "Sessão não encontrada"

  /** `{ filme, sessoes }`. */
  datatype SessoesDoFilme = SessoesDoFilme(filme: Film, sessoes: seq<Sessoes.SessionView>)

  /** `{ sessao, layout }`. */
  datatype Visualizacao = Visualizacao(sessao: Sessoes.SessionView, layout: Layout)

  /**
   * `listarSessoes`: the film lookup and the showtime query each meet the
   * database in their own state, hence one `Health` each.
   */
  function ListarSessoes(st: Store, filmeHealth: Health, sessoesHealth: Health, filmeId: int, data: Option<string>)
    : (r: Result<SessoesDoFilme, string>)
    ensures r.Err? <==> filmeHealth.Answers? && !(exists f :: f in st.films && f.id == filmeId)
    ensures r.Err? ==> r.error == FilmeNaoEncontrado
    ensures r.Ok? && filmeHealth.Answers? ==> r.value.filme in st.films && r.value.filme.id == filmeId
    ensures r.Ok? ==> Some(r.value.filme) == Filmes.FindById(st, filmeHealth, filmeId)
    ensures r.Ok? && sessoesHealth.Answers? ==> r.value.sessoes == Sessoes.Listing(st, filmeId, data)
    ensures r.Ok? && sessoesHealth.Answers? ==>
              forall v :: v in r.value.sessoes <==>
                exists s :: s in st.sessions && Sessoes.Wanted(s, filmeId, data) && Sessoes.Joined(st, s) == Some(v)
    ensures r.Ok? && sessoesHealth.Fails? ==> r.value.sessoes == Sessoes.MockSessions(filmeId) && |r.value.sessoes| == 2
  {
    match Filmes.FindById(st, filmeHealth, filmeId)
    case None => Err(FilmeNaoEncontrado)
    case Some(filme) =>
      var sessoes := Sessoes.FindByFilme(st, sessoesHealth, filmeId, data);
      forall v | sessoesHealth.Answers?
        ensures v in sessoes <==>
                exists s :: s in st.sessions && Sessoes.Wanted(s, filmeId, data) && Sessoes.Joined(st, s) == Some(v)
      {
        Sessoes.ListingContents(st, filmeId, data, v);
      }
      Ok(SessoesDoFilme(filme, sessoes))
  }

  /**
   * With the database down, an unknown film is answered with the first
   * fabricated film next to showtimes that carry the requested film id.
   */
  lemma UnknownFilmWhileDown(st: Store, reason: string)
    ensures var r := ListarSessoes(st, Fails(reason), Fails(reason), 99, None);
            r.Ok? && r.value.filme.id == 1 && r.value.sessoes[0].filmeId == 99
  {
  }

  /**
   * `visualizarAssentos`: the showtime lookup, the seat query, and the layout
   * built from the seats.
   */
  method VisualizarAssentos(st: Store, sessaoHealth: Health, assentosHealth: Health, sessaoId: int, livre: nat -> bool)
    returns (r: Result<Visualizacao, string>)
    ensures r.Err? <==>
              sessaoHealth.Answers? && !(exists s :: s in st.sessions && s.id == sessaoId && Sessoes.Joined(st, s).Some?)
    ensures r.Err? ==> r.error == SessaoNaoEncontrada
    ensures r.Ok? ==> r.value.sessao.id == sessaoId
    ensures r.Ok? ==> Some(r.value.sessao) == Sessoes.FindById(st, sessaoHealth, sessaoId)
    ensures r.Ok? && assentosHealth.Answers? ==>
              && r.value.layout.assentos == SeatMap(st, sessaoId)
              && forall k :: k in r.value.layout.fileiras <==> HasRow(SeatMap(st, sessaoId), k)
    ensures r.Ok? && assentosHealth.Fails? ==>
              && |r.value.layout.assentos| == 50
              && (forall i :: 0 <= i < 50 ==> r.value.layout.assentos[i] == MockSeat(i, livre(i)))
              && forall k :: k in r.value.layout.fileiras <==> k in MockFileiras
    ensures r.Ok? ==> r.value.layout == BuildLayout(r.value.layout.assentos)
    ensures r.Ok? ==> forall i, j :: 0 <= i < j < |r.value.layout.fileiras| ==>
              StrLt(r.value.layout.fileiras[i], r.value.layout.fileiras[j])
  {
    var sessao := Sessoes.FindById(st, sessaoHealth, sessaoId);
    if sessao.None? {
      return Err(SessaoNaoEncontrada);
    }
    var assentos := FindBySessao(st, assentosHealth, sessaoId, livre);
    var layout := BuildLayout(assentos);
    LayoutRows(assentos);
    if assentosHealth.Fails? {
      forall k
        ensures HasRow(assentos, k) <==> k in MockFileiras
      {
        MockRows(assentos, livre, k);
      }
    }
    r := Ok(Visualizacao(sessao.value, layout));
  }

  /** The fabricated room has exactly the rows A to E. */
  lemma MockRows(assentos: seq<SeatView>, livre: nat -> bool, k: string)
    requires |assentos| == 50 && forall i :: 0 <= i < 50 ==> assentos[i] == MockSeat(i, livre(i))
    ensures HasRow(assentos, k) <==> k in MockFileiras
  {
    if HasRow(assentos, k) {
      MockRowKnown(assentos, livre, k);
    }
    if k in MockFileiras {
      MockRowPresent(assentos, livre, k);
    }
  }

  lemma MockRowKnown(assentos: seq<SeatView>, livre: nat -> bool, k: string)
    requires |assentos| == 50 && forall i :: 0 <= i < 50 ==> assentos[i] == MockSeat(i, livre(i))
    requires HasRow(assentos, k)
    ensures k in MockFileiras
  {
    var a :| a in assentos && a.fileira == k;
    var i :| 0 <= i < 50 && assentos[i] == a;
    assert k == MockFileiras[i / 10];
  }

  lemma MockRowPresent(assentos: seq<SeatView>, livre: nat -> bool, k: string)
    requires |assentos| == 50 && forall i :: 0 <= i < 50 ==> assentos[i] == MockSeat(i, livre(i))
    requires k in MockFileiras
    ensures HasRow(assentos, k)
  {
    var j :| 0 <= j < 5 && MockFileiras[j] == k;
    DivTen(10 * j, j, 0);
    assert assentos[10 * j].fileira == k;
  }
}

=== FILE: sessoes.dfy ===
/**
 * The showtime repository (`SessaoRepository`): one showtime by id, and the
 * active showtimes of a film, optionally on one date, in chronological
 * order. Both join the room and the film, and both fall back to fabricated
 * showtimes when the database fails.
 */
module Sessoes {
  import opened Schema
  import opened Seqs
  import opened Text

  /**
   * A showtime row joined with its room and film: the showtime's own
   * columns plus the room's name and capacity and the film's name.
   * Fabricated rows carry no `sala_id`, hence the option.
   */
  datatype SessionView = SessionView(
    id: int,
    filmeId: int,
    salaId: Option<int>,
    salaNome: string,
    capacidade: int,
    filmeNome: string,
    data: string,
    horario: string,
    ativa: bool)

  /**
   * The inner join of one showtime with its room and its film: nothing when
   * its room or its film is missing.
   * Room and film ids are primary keys, so the first match is the match.
   */
  function Joined(st: Store, s: Session): Option<SessionView> {
    var rooms := Filter(st.rooms, (r: Room) => r.id == s.salaId);
    var films := Filter(st.films, (f: Film) => f.id == s.filmeId);
    if |rooms| == 0 || |films| == 0 then None
    else Some(SessionView(s.id, s.filmeId, Some(s.salaId), rooms[0].nome, rooms[0].capacidade,
                          films[0].nome, s.data, s.horario, s.ativa))
  }

  function JoinedAll(st: Store, ss: seq<Session>): seq<SessionView> {
    if |ss| == 0 then []
    else match Joined(st, ss[0])
      case None => JoinedAll(st, ss[1..])
      case Some(v) => [v] + JoinedAll(st, ss[1..])
  }

  lemma {:induction false} JoinedAllMembers(st: Store, ss: seq<Session>, v: SessionView)
    ensures v in JoinedAll(st, ss) <==> exists s :: s in ss && Joined(st, s) == Some(v)
  {
    if |ss| > 0 {
      JoinedAllMembers(st, ss[1..], v);
      if exists s :: s in ss && Joined(st, s) == Some(v) {
        var s :| s in ss && Joined(st, s) == Some(v);
        if s != ss[0] {
          assert s in ss[1..];
        }
      }
      if v in JoinedAll(st, ss[1..]) {
        var s :| s in ss[1..] && Joined(st, s) == Some(v);
        assert s in ss;
      }
    }
  }

  /** The showtime `findById` fabricates: the requested id with fixed remaining fields. */
  function MockSession(id: int): SessionView {
    SessionView(id, 1, None, "Sala 1", 50, "Avatar: O Caminho da Água", "2025-08-22", "14:30:00", true)
  }

  /** `findById`: the first joined row for the id, or the fabricated showtime on failure. */
  function FindById(st: Store, health: Health, id: int): (r: Option<SessionView>)
    ensures health.Fails? ==> r.Some? && r.value.id == id && r.value.filmeId == 1 && r.value.ativa
    ensures health.Answers? ==>
              (r.Some? <==> exists s :: s in st.sessions && s.id == id && Joined(st, s).Some?)
    ensures health.Answers? && r.Some? ==>
              exists s :: s in st.sessions && s.id == id && Joined(st, s) == r
  {
    if health.Fails? then Some(MockSession(id))
    else
      var matching := Filter(st.sessions, (s: Session) => s.id == id);
      var rows := JoinedAll(st, matching);
      if |rows| == 0 then
        assert forall s :: s in st.sessions && s.id == id && Joined(st, s).Some? ==> Joined(st, s).value in rows by {
          forall s | s in st.sessions && s.id == id && Joined(st, s).Some?
            ensures Joined(st, s).value in rows
          {
            JoinedAllMembers(st, matching, Joined(st, s).value);
          }
        }
        None
      else
        assert rows[0] in rows;
        JoinedAllMembers(st, matching, rows[0]);
        Some(rows[0])
  }

  /** An absent or empty date applies no date filter, as JavaScript truthiness decides. */
  predicate DateGiven(data: Option<string>) {
    data.Some? && data.value != ""
  }

  /** The listing's filter: the film, active showtimes only, and the date when one is given. */
  predicate Wanted(s: Session, filmeId: int, data: Option<string>) {
    s.filmeId == filmeId && s.ativa && (DateGiven(data) ==> s.data == data.value)
  }

  /** The listing's order: by date, then by time, compared as `YYYY-MM-DD` and `HH:MM:SS` text. */
  predicate SessionLe(a: SessionView, b: SessionView) {
    || StrLt(a.data, b.data)
    || (a.data == b.data && StrLe(a.horario, b.horario))
  }

  /** The query of `findByFilme`, when the database answers. */
  function Listing(st: Store, filmeId: int, data: Option<string>): seq<SessionView> {
    SortBy(JoinedAll(st, Filter(st.sessions, (s: Session) => Wanted(s, filmeId, data))), SessionLe)
  }

  /** The two showtimes `findByFilme` fabricates, whatever date was asked for. */
  function MockSessions(filmeId: int): (r: seq<SessionView>)
    ensures |r| == 2 && r[0].id == 1 && r[1].id == 2
    ensures forall i :: 0 <= i < |r| ==> r[i].filmeId == filmeId && r[i].ativa
  {
    [ SessionView(1, filmeId, None, "Sala 1", 50, "Avatar: O Caminho da Água", "2025-08-22", "14:30:00", true),
      SessionView(2, filmeId, None, "Sala Premium", 30, "Avatar: O Caminho da Água", "2025-08-22", "19:00:00", true) ]
  }

  function FindByFilme(st: Store, health: Health, filmeId: int, data: Option<string>): seq<SessionView> {
    if health.Fails? then MockSessions(filmeId) else Listing(st, filmeId, data)
  }

  lemma SessionLeIsTotalPreorder()
    ensures TotalPreorder(SessionLe)
  {
    forall x: SessionView, y: SessionView
      ensures SessionLe(x, y) || SessionLe(y, x)
    {
      StrLeTotal(x.data, y.data);
      StrLeTotal(x.horario, y.horario);
    }
    forall x: SessionView, y: SessionView, z: SessionView | SessionLe(x, y) && SessionLe(y, z)
      ensures SessionLe(x, z)
    {
      if StrLt(x.data, y.data) && StrLt(y.data, z.data) {
        StrLeTransitive(x.data, y.data, z.data);
        if x.data == z.data {
          StrLeAntisymmetric(x.data, y.data);
        }
      }
      if x.data == y.data == z.data {
        StrLeTransitive(x.horario, y.horario, z.horario);
      }
    }
  }

  /**
   * The listing holds exactly the active showtimes of the film (on the date,
   * when one is given) whose room and film exist, in chronological order.
   */
  lemma ListingContents(st: Store, filmeId: int, data: Option<string>, v: SessionView)
    ensures v in Listing(st, filmeId, data)
            <==> exists s :: s in st.sessions && Wanted(s, filmeId, data) && Joined(st, s) == Some(v)
    ensures SortedBy(Listing(st, filmeId, data), SessionLe)
  {
    var wanted := Filter(st.sessions, (s: Session) => Wanted(s, filmeId, data));
    SortByMembers(JoinedAll(st, wanted), SessionLe, v);
    JoinedAllMembers(st, wanted, v);
    SessionLeIsTotalPreorder();
    SortBySorted(JoinedAll(st, wanted), SessionLe);
  }

  /** Every listed showtime belongs to the film, is active and, when a date is given, falls on it. */
  lemma ListingFiltered(st: Store, filmeId: int, data: Option<string>)
    ensures forall v :: v in Listing(st, filmeId, data) ==>
              v.filmeId == filmeId && v.ativa && (DateGiven(data) ==> v.data == data.value)
  {
    forall v | v in Listing(st, filmeId, data)
      ensures v.filmeId == filmeId && v.ativa && (DateGiven(data) ==> v.data == data.value)
    {
      ListingContents(st, filmeId, data, v);
    }
  }

  /** An empty date string is falsy: the same listing as no date at all. */
  lemma EmptyDateIsNoDate(st: Store, filmeId: int)
    ensures Listing(st, filmeId, Some("")) == Listing(st, filmeId, None)
  {
    FilterExt(st.sessions, (s: Session) => Wanted(s, filmeId, Some("")), (s: Session) => Wanted(s, filmeId, None));
  }
}

=== FILE: text.dfy ===
/**
 * String helpers shared by the repositories, the controller and the seat map:
 * substring search (JavaScript `includes`), `join`, character counting, the
 * numeric value of a seat number, decimal rendering and the code-point
 * lexicographic order used by JavaScript's default `sort()`.
 */
module Text {

  /** `s.includes(sub)`: `sub` occurs somewhere in `s`. */
  predicate Contains(s: string, sub: string) {
    sub <= s || (|s| > 0 && Contains(s[1..], sub))
  }

  /** An occurrence at any offset makes `Contains` hold. */
  lemma {:induction false} ContainsAt(s: string, sub: string, k: nat)
    requires k + |sub| <= |s| && s[k..k + |sub|] == sub
    ensures Contains(s, sub)
  {
    if k > 0 {
      assert s[1..][k - 1..k - 1 + |sub|] == s[k..k + |sub|];
      ContainsAt(s[1..], sub, k - 1);
    }
  }

  /** `parts.join(sep)`. */
  function Join(parts: seq<string>, sep: string): string {
    if |parts| == 0 then ""
    else if |parts| == 1 then parts[0]
    else parts[0] + sep + Join(parts[1..], sep)
  }

  /** Number of occurrences of `c` in `s`. */
  function Count(s: string, c: char): nat {
    if |s| == 0 then 0 else (if s[0] == c then 1 else 0) + Count(s[1..], c)
  }

  lemma {:induction false} CountAbsent(s: string, c: char)
    requires c !in s
    ensures Count(s, c) == 0
  {
    if |s| > 0 {
      assert s[0] in s;
      assert forall x :: x in s[1..] ==> x in s;
      CountAbsent(s[1..], c);
    }
  }

  lemma {:induction false} CountAppend(a: string, b: string, c: char)
    ensures Count(a + b, c) == Count(a, c) + Count(b, c)
  {
    if |a| == 0 {
      assert a + b == b;
    } else {
      assert (a + b)[1..] == a[1..] + b;
      CountAppend(a[1..], b, c);
    }
  }

  /**
   * Occurrences of `c` in a join whose separator does not contain `c`: one
   * per part when every part holds exactly one, none when no part holds any.
   */
  lemma {:induction false} CountJoin(parts: seq<string>, sep: string, c: char, perPart: nat)
    requires perPart <= 1 && Count(sep, c) == 0
    requires forall i :: 0 <= i < |parts| ==> Count(parts[i], c) == perPart
    ensures Count(Join(parts, sep), c) == if perPart == 0 then 0 else |parts|
  {
    if |parts| <= 1 {
    } else {
      CountJoin(parts[1..], sep, c, perPart);
      CountAppend(parts[0], sep, c);
      CountAppend(parts[0] + sep, Join(parts[1..], sep), c);
    }
  }

  predicate IsDigit(c: char) {
    '0' <= c <= '9'
  }

  predicate AllDigits(s: string) {
    forall i :: 0 <= i < |s| ==> IsDigit(s[i])
  }

  function DigitValue(c: char): nat
    requires IsDigit(c)
  {
    (c as int) - ('0' as int)
  }

  function DigitChar(d: nat): (c: char)
    requires d < 10
    ensures IsDigit(c) && DigitValue(c) == d
  {
    (('0' as int) + d) as char
  }

  /** The longest prefix of `s` made only of decimal digits. */
  function DigitPrefix(s: string): (r: string)
    ensures r <= s && AllDigits(r)
    ensures |r| < |s| ==> !IsDigit(s[|r|])
  {
    if |s| == 0 || !IsDigit(s[0]) then "" else [s[0]] + DigitPrefix(s[1..])
  }

  /** The value of a string of decimal digits, most significant first. */
  function DigitsValue(d: string): nat
    requires AllDigits(d)
  {
    if |d| == 0 then 0 else DigitsValue(d[..|d| - 1]) * 10 + DigitValue(d[|d| - 1])
  }

  /**
   * The numeric value of a seat number: its leading decimal digits, 0 when
   * there are none (MySQL's `CAST(numero AS UNSIGNED)`; for strings that
   * start with a digit also JavaScript's `parseInt(numero)`).
   */
  function LeadingNumber(s: string): nat {
    DigitsValue(DigitPrefix(s))
  }

  /** `n.toString()` for a natural number. */
  function Decimal(n: nat): (r: string)
    ensures |r| > 0 && AllDigits(r)
  {
    if n < 10 then [DigitChar(n)] else Decimal(n / 10) + [DigitChar(n % 10)]
  }

  lemma DigitPrefixOfDigits(s: string)
    requires AllDigits(s)
    ensures DigitPrefix(s) == s
  {
  }

  lemma {:induction false} DigitsValueOfDecimal(n: nat)
    ensures DigitsValue(Decimal(n)) == n
  {
    if n >= 10 {
      var d := Decimal(n);
      assert d[..|d| - 1] == Decimal(n / 10);
      DigitsValueOfDecimal(n / 10);
    }
  }

  /** Reading back a rendered number gives the number: "10" is ten, not one. */
  lemma LeadingNumberOfDecimal(n: nat)
    ensures LeadingNumber(Decimal(n)) == n
  {
    DigitPrefixOfDigits(Decimal(n));
    DigitsValueOfDecimal(n);
  }

  /** Lexicographic order on code points: JavaScript's default `sort()` comparison. */
  predicate StrLe(a: string, b: string) {
    if |a| == 0 then true
    else if |b| == 0 then false
    else if a[0] != b[0] then a[0] < b[0]
    else StrLe(a[1..], b[1..])
  }

  predicate StrLt(a: string, b: string) {
    StrLe(a, b) && a != b
  }

  lemma {:induction false} StrLeTotal(a: string, b: string)
    ensures StrLe(a, b) || StrLe(b, a)
  {
    if |a| > 0 && |b| > 0 && a[0] == b[0] {
      StrLeTotal(a[1..], b[1..]);
    }
  }

  lemma {:induction false} StrLeAntisymmetric(a: string, b: string)
    requires StrLe(a, b) && StrLe(b, a)
    ensures a == b
  {
    if |a| > 0 && |b| > 0 {
      StrLeAntisymmetric(a[1..], b[1..]);
      assert a == [a[0]] + a[1..] && b == [b[0]] + b[1..];
    }
  }

  lemma {:induction false} StrLeTransitive(a: string, b: string, c: string)
    requires StrLe(a, b) && StrLe(b, c)
    ensures StrLe(a, c)
  {
    if |a| > 0 && |b| > 0 && |c| > 0 && a[0] == b[0] == c[0] {
      StrLeTransitive(a[1..], b[1..], c[1..]);
    }
  }
}
